=== FILE: README.md ===
# Heart-disease risk predictor: the line protocol between the desktop app and its worker

This project models the decision-making core of a two-process desktop application:

- A Qt window collects patient measurements, one per model feature.
- It sends them to a Python worker that holds the trained classifier.
- It shows the predicted risk.

The two processes exchange one JSON value per line over the worker's standard input and output.

The model has four parts:

- **The bridge** (`PythonBridge`). This is the C++ object that owns the worker process.
  - `initialize` starts `python3 predict_service.py`.
  - `sendCommand` writes one command line and reads one reply line.
  - `parseResponse` collapses blank and malformed replies into a non-object.
  - `getModelInfo` and `predict` turn a reply into a `ModelInfo` or a `PredictionResult`, filling in defaults for absent fields.
  - `shutdown` sends `EXIT` and releases the process. The destructor calls it.
- **The worker loop** (`PredictService`). `main()` strips every input line and skips blank ones. It stops at `EXIT`. It answers `INFO` with the model metadata and every other line with a prediction or error envelope. If loading the model fails, it prints one initialization error and exits with status 1.
- **The `.env` reader** (`EnvLoader`). It searches at most ten directories upwards for a `.env` file. Then it reads `KEY=VALUE` lines: it trims them, skips comments, splits at the first `=`, removes one pair of double quotes, and lets the last assignment win.
- **The window** (`MainWindow`). The constructor aborts when the worker does not start or reports no features. Each form row is labelled with a description or the raw feature name. `collectFeatures` builds the positional feature vector or reports the first field that cannot be read.

`Protocol` joins the two halves. It proves three things:

- The worker reads the bridge's request as one prediction command.
- The bridge reads the worker's envelopes back as the worker meant them.
- A late reply after a timeout is paired with the next command.

Supporting modules:

- `Results`: `Option` and `Result`.
- `Text`: C-locale whitespace trimming and character search.
- `Json`: JSON values, the C++ library's typed `value(key, default)` and Python's `obj[key]`.
- `Dto`: the two result structs.

The model uses these parameters instead of the real thing:

- **Process.** Whether it started in time (`started`), the output that arrived within a wait (`reply`, `None` on a timeout), and whether it is no longer running after the three-second wait of `shutdown` (`exitedInTime`, true for a process that never started, which is never killed).
- **JSON.** The parser (`parse`, `None` on a syntax error) and the printer (`dump`).
- **Worker.** `json.loads`, the outcome of `load_model()`, and `predict()`, gathered in `Runtime`.
- **Filesystem.** The ancestor directories, a test for an `.env` entry, and the file's lines.
- **Number parsing.** `QString::toFloat`.

## Behaviour of note

- The interpreter is always `python3`.
- `predict` sends the vector whatever its length; nothing compares it with the model's feature count.
- Nothing resynchronises the stream after a timeout, so a late reply is read by the next command (`Protocol.LateReplyGoesToNextCommand`). A late `INFO` envelope even makes the next prediction report success with class 0 (`Protocol.LateInfoReadsAsPrediction`).
- Only the worker's standard output is read.
- Requests are not serialised by any lock; the model treats calls as sequential.
- The bridge has only the `initialized` flag and the process pointer. An unusable bridge sends nothing and reads the empty reply, which `getModelInfo` and `predict` report as an invalid JSON reply.
- A failed `initialize` keeps the new process object and does not stop it (`PythonBridge.FailedStartKeepsProcess`).
- A worker error message may be empty. It is passed on as it is.

## Model

| member | source | states |
|---|---|---|
| Text.Trim | ui/include/utils/env_loader.h:46-53 | the result has no whitespace at either end, is no longer than the input, and is a contiguous piece of it whose removed ends are all whitespace |
| Text.TrimUnique | ui/include/utils/env_loader.h:46-53 | any text meeting that description is the trimmed text, so trimming keeps every interior character |
| Text.TrimOfTrimmed | ui/include/utils/env_loader.h:64-65 | trimming a text with no edge whitespace changes nothing |
| Text.TrimIdempotent | ui/include/utils/env_loader.h:46-53 | trimming twice is trimming once |
| Text.IndexOf | ui/include/utils/env_loader.h:59-60 | a position is found exactly when the character occurs, and it is the first occurrence |
| Json.TruncateToInt | ui/src/app/python_bridge.cpp:92 | converting a floating number to `int` truncates toward zero |
| Json.ValueString | ui/src/app/python_bridge.cpp:78 | an absent key gives the default, a string member gives its text, any other member is a type error naming the key |
| Json.ValueInt | ui/src/app/python_bridge.cpp:92 | an absent key gives the default; an integer member gives its value, a floating one its truncation, a boolean 0 or 1; a type error naming the key happens exactly for a present member of any other type |
| Json.ValueDouble | ui/src/app/python_bridge.cpp:102-105 | an absent key gives the default; a number gives its value, an integer widened; a type error naming the key happens exactly for a present member that is not a number |
| Json.Subscript | model/src/predict_service.py:55-58 | a dict member is found exactly when the value is a dict holding the key; a missing key raises a `KeyError` whose text is the quoted key |
| PythonBridge.Initialize | ui/src/app/python_bridge.cpp:15-29 | `python3` is spawned with the script as its only argument; the flag is set only by a start in time and the failure text is emitted otherwise; the new process pointer is kept in both cases |
| PythonBridge.ReadLine | ui/src/app/python_bridge.cpp:47 | the line taken is the buffer up to and including its first line feed (or all of it), and the line plus what stays buffered is the buffer |
| PythonBridge.SendCommand | ui/src/app/python_bridge.cpp:31-49 | an unready bridge writes nothing and answers empty; otherwise the command is written with exactly one line feed; a timeout answers empty and emits the timeout text; otherwise the answer is the first buffered line, trimmed, and the rest stays buffered |
| PythonBridge.ParseResponse | ui/src/app/python_bridge.cpp:51-64 | blank text is null; the result is an object exactly when the trimmed text parses to an object, and then it is that object |
| PythonBridge.StringItems | ui/src/app/python_bridge.cpp:94-98 | the feature names are read exactly when every array entry is a string, in order and with nothing added |
| PythonBridge.InterpretModelInfo | ui/src/app/python_bridge.cpp:73-106 | a non-object, a missing or non-success string `status`, or a missing or non-object `data` each give their own rejection text; a non-string `status` is a type error; with a `data` object the reply is accepted unless one of the fields read has a type the library refuses, which is a type error; accepted feature names are the array's entries in order |
| PythonBridge.GetModelInfo | ui/src/app/python_bridge.cpp:66-109 | `INFO` is written when the bridge is ready; a rejected reply gives the empty model info and emits the rejection text; an accepted reply gives its model with no emission; a type error escapes; an unready bridge or a timeout gives the empty model info |
| PythonBridge.PredictRequest | ui/src/app/python_bridge.cpp:116-119 | the request is an object whose only key is `features`, holding the vector's values in their original order |
| PythonBridge.InterpretPrediction | ui/src/app/python_bridge.cpp:123-138 | a non-object gives the invalid-json text; a non-string `status` is a type error; a missing or non-success `status` gives the reply's string `message`, `"unknown error"` when it has none, and a type error for a non-string one; a success reply gives its converted `prediction` and `probability` (defaults 0 and 0.0), with a type error exactly when one of them has an unconvertible type |
| PythonBridge.Predict | ui/src/app/python_bridge.cpp:111-141 | an unready bridge writes nothing and a timeout fails with the invalid-json text; whatever is already buffered, the result follows `InterpretPrediction` of the first buffered line: a type error escapes, a rejection fails with prediction 0, probability 0.0 and the rejection text, which is also emitted, and an acceptance succeeds with the reply's values and an empty message |
| PythonBridge.Shutdown | ui/src/app/python_bridge.cpp:143-158 | from any state, ends with no process and the flag cleared; a bridge without a process gets no events, and one with a process gets exactly `EXIT`, then `Killed` only when it did not exit in time, then the release |
| PythonBridge.Destroy | ui/src/app/python_bridge.cpp:10-13 | the destructor runs `shutdown`: no process afterwards, no error emitted, no events without a process, and with one exactly `EXIT`, then `Killed` only when it did not exit in time, then the release |
| PythonBridge.ShutdownIdempotent | ui/src/app/python_bridge.cpp:143-158 | a second `shutdown` changes nothing |
| PythonBridge.FailedStartKeepsProcess | ui/src/app/python_bridge.cpp:17-23 | after a failed start no command writes anything, yet the process pointer is still set, so `shutdown` sends it `EXIT`, and, since it is not running, releases it without a kill |
| PythonBridge.ModelInfoDefaults | ui/src/app/python_bridge.cpp:89-106 | each present field of a usable info reply is copied as the library converts it (name, count, feature names in order, each metric on its own); each absent field takes its default (`""`, 0, no features, 0.0); `num_features` is not compared with the list |
| PythonBridge.PredictionCopiedVerbatim | ui/src/app/python_bridge.cpp:136-138 | a successful reply's prediction and probability are taken as they are, with no range check or complement |
| PythonBridge.PredictionDefaults | ui/src/app/python_bridge.cpp:137-138 | an absent prediction reads as 0 and an absent probability as 0.0 |
| PredictService.InfoData | model/src/predict_service.py:52-60 | the `INFO` data exists exactly when the metadata is a dict holding all four keys; it has exactly the four keys, each copied from its metadata entry |
| PredictService.Prediction | model/src/predict_service.py:64-73 | an undecodable line fails with the decoder's message, and a request without `features` with the quoted key; a request object with `features` reaches the predictor with the metadata's `uses_scaling`, and the predictor's answer or failure text is the result; missing `uses_scaling` fails with `'uses_scaling'` |
| PredictService.PredictionReply | model/src/predict_service.py:64-87 | every prediction command gets exactly one envelope, success or error and never both: success with the predictor's two values exactly when the prediction succeeds, otherwise an error carrying the exception text |
| PredictService.Respond | model/src/predict_service.py:51-87 | `INFO` gets the info envelope of the metadata's four entries exactly when the metadata has them, and otherwise escapes with the lookup's exception text; every other command gets its prediction or error envelope and never escapes the loop |
| PredictService.Commands | model/src/predict_service.py:43-49 | the dispatched commands are stripped, non-blank and never `EXIT`, and there are no more of them than lines |
| PredictService.Replies | model/src/predict_service.py:43-95 | the reference transcript: at most one envelope per command; exit status 0 exactly when every command is answered without an escaping exception, and then one envelope for each command |
| PredictService.Serve | model/src/predict_service.py:39-95 | a failed load prints one initialization error and exits with status 1 before reading input; otherwise the output is the reference transcript of the commands before the first `EXIT` |
| PredictService.CommandsOfOneLine | model/src/predict_service.py:43-49 | a line is dispatched as its stripped text, nothing is dispatched for a blank line, and nothing from an `EXIT` line on; with the next two rows this determines the commands of every input |
| PredictService.CommandsConcat | model/src/predict_service.py:43-49 | before any `EXIT`, the commands of two consecutive chunks of input are the commands of each, in order |
| PredictService.CommandsStopAtExit | model/src/predict_service.py:48-49 | nothing after an `EXIT` line is dispatched |
| PredictService.OneEnvelopePerCommand | model/src/predict_service.py:43-87 | while every command can be answered, the k-th envelope answers the k-th command, there is one per command, and the exit status is 0 |
| PredictService.InfoCrashEndsService | model/src/predict_service.py:51-95 | with incomplete metadata, the first `INFO` ends the process after the earlier commands' envelopes with one initialization error and status 1 |
| EnvLoader.FindEnvDirectory | ui/include/utils/env_loader.h:23-36 | the directory found is the nearest one among the first ten that holds an `.env` entry; none is found exactly when no such directory has one |
| EnvLoader.ParseLine | ui/include/utils/env_loader.h:55-69 | a line adds nothing exactly when it is blank after trimming, starts with `#`, or has no `=`; a key never contains `=` and has no edge whitespace |
| EnvLoader.ParseLineSplitsAtFirstEquals | ui/include/utils/env_loader.h:59-62 | the key is the trimmed text before the first `=` and the value the trimmed, unquoted text after it, so values may contain `=` |
| EnvLoader.RenderedLineRoundTrip | ui/include/utils/env_loader.h:59-69 | a line `key="value"` reads back as exactly that pair for any value, and `="v"` gives the empty key |
| EnvLoader.QuotedValueReadsBack | ui/include/utils/env_loader.h:65-69 | a value written in double quotes is read back, after trimming and unquoting, as exactly that value |
| EnvLoader.UnquoteOnlyDoubleQuotes | ui/include/utils/env_loader.h:67-69 | exactly one outer pair of double quotes is removed; a value shorter than two characters or without a matching outer pair is unchanged |
| EnvLoader.Assign | ui/include/utils/env_loader.h:71 | an assignment sets its key to its value and leaves every other key as it was |
| EnvLoader.LastAssignmentWins | ui/include/utils/env_loader.h:45-73 | a key is in the map exactly when some line assigns it, and its value is that of the last such line |
| EnvLoader.Load | ui/include/utils/env_loader.h:17-76 | the load fails with "Could not find env file" exactly when none of the first ten directories has an `.env` entry; otherwise the map is the one the nearest file's lines produce |
| MainWindow.Open | ui/src/app/main_window.cpp:3-24 | the window closes with "failed to initialize python bridge" when the worker does not start; a started worker goes on exactly as `Fetch` on the freshly started bridge, so a timeout or an empty feature list closes with "failed to load model info", a type error escapes, and otherwise the form is shown for the reply's model after `INFO` was written |
| MainWindow.Fetch | ui/src/app/main_window.cpp:15-23 | on a started bridge, the form is shown for exactly the model info `getModelInfo` returns when its feature list is non-empty; an empty list (including after a timeout) closes the window with "failed to load model info"; a type error escapes the constructor |
| MainWindow.RowLabels | ui/src/app/main_window.cpp:74-78 | one label per feature in order: the description when there is one, otherwise the raw name |
| MainWindow.ShippedRowLabels | ui/src/app/main_window.cpp:58-78 | with the built-in description table, `age`, `thal` and `chol` get their descriptions and an unknown name is shown as it is |
| MainWindow.InputFields | ui/src/app/main_window.cpp:75-88 | the form has a field for exactly the model's features |
| MainWindow.InputFieldsKeepLastRow | ui/src/app/main_window.cpp:75-88 | every name maps to the text of its last row, so a repeated name keeps the last row's field |
| MainWindow.CollectFeatures | ui/src/app/main_window.cpp:114-138 | success exactly when no feature has a problem; the vector has one entry per feature, the i-th parsed from the i-th feature's trimmed text; otherwise the error is the first problem in model order, checking missing, then empty, then invalid |
| MainWindow.BuiltFormHasEveryField | ui/src/app/main_window.cpp:117-121 | a form built from the model's feature list never reports a missing field |
| Protocol.TrimLine | ui/src/app/python_bridge.cpp:47 | a printed value followed by its line feed is read back as the printed value |
| Protocol.WorkerReadsBridgeRequest | model/src/predict_service.py:64-73 | the bridge's request line is one prediction command, and the worker gives the predictor the request's features in their original order |
| Protocol.BridgeReadsWorkerPrediction | ui/src/app/python_bridge.cpp:123-138 | the bridge accepts the worker's success envelope with the same two values and reads an error envelope as a failure carrying the worker's message |
| Protocol.BridgeReadsWorkerInfo | ui/src/app/python_bridge.cpp:84-106 | for well-typed metadata, the bridge reads the worker's `INFO` envelope back as exactly that name, feature list, count and metrics |
| Protocol.ReadsAllMetrics | ui/src/app/python_bridge.cpp:100-105 | a `metrics` object holding all four metrics as floating numbers is read as exactly those numbers |
| Protocol.InfoEnvelopeAccepted | ui/src/app/python_bridge.cpp:73-108 | a success envelope whose `data` object can be read is accepted as exactly what it reads |
| Protocol.GetModelInfoReadsFirstLine | ui/src/app/python_bridge.cpp:66-109 | with nothing buffered, `getModelInfo` decides on the first line that arrives alone, leaves the rest buffered, and emits nothing when it accepts |
| Protocol.InfoRoundTrip | ui/src/app/python_bridge.cpp:66-109 | the worker answers `INFO` with its metadata, the answer arrives as one line, and the bridge's model info is exactly the model the metadata describes, with no error emitted |
| Protocol.WindowShowsWorkerModel | ui/src/app/main_window.cpp:9-23 | a started worker whose metadata names at least one feature opens the form on exactly that model |
| Protocol.WorkerInfoCrashGivesEmptyInfo | ui/src/app/python_bridge.cpp:78-82 | the worker's initialization error envelope gives the bridge the "failed to get model info" rejection |
| Protocol.FirstLineReply | ui/src/app/python_bridge.cpp:42-48 | with nothing buffered, the answer is the first line that arrives, and everything after it stays buffered |
| Protocol.PredictReadsFirstLine | ui/src/app/python_bridge.cpp:120-141 | with nothing buffered, `predict` decides on the first line that arrives alone and leaves the rest buffered |
| Protocol.PredictionRoundTrip | ui/src/app/python_bridge.cpp:111-141 | request written, worker answers, answer arrives as one line: the bridge's result is the worker's prediction, or a failure with the worker's message, and nothing stays buffered |
| Protocol.LateReplyGoesToNextCommand | ui/src/app/python_bridge.cpp:42-47 | after a timeout, the next command receives the late answer and its own answer stays buffered for the command after it |
| Protocol.InfoEnvelopeReadsAsEmptyPrediction | ui/src/app/python_bridge.cpp:129-138 | an `INFO` envelope read as a prediction reply passes the status gate and yields prediction 0 with probability 0.0 |
| Protocol.LateInfoReadsAsPrediction | ui/src/app/python_bridge.cpp:42-47 | when `INFO` times out and its envelope arrives late, the next `predict` reports a successful prediction of class 0 with probability 0.0, and the worker's real answer stays buffered |
| Protocol.PartialMetricsInfoReply | ui/src/app/python_bridge.cpp:89-106 | an info reply naming two features and only the accuracy reads as that model with the other metrics at 0.0 |
| Protocol.ErrorStatusReplies | ui/src/app/python_bridge.cpp:129-134 | an error reply gives the empty model info, and a failed prediction carrying its message |

## Left out

- Process mechanics are abstract outcomes. This covers spawning, the 5-second start and reply waits, the 1-second write wait, the 3-second exit wait, `kill` and `delete`. Bytes written are assumed to reach the worker.
- UTF-8 conversion between `QString` and bytes is left out. Text is a sequence of characters on both sides.
- The JSON parser and printer are parameters, not implementations. The round-trip lemmas assume that the parser reads back what the printer wrote, and that a printed value is one line with no edge whitespace.
- Json.ValueInt: the 64-bit JSON integer is not narrowed to C++ `int`, and a float outside `int`'s range, whose `static_cast<int>` is undefined behaviour in C++, is truncated to an unbounded integer; the value is kept unbounded in both cases.
- Whitespace is the six C-locale characters (space, tab, line feed, vertical tab, form feed, carriage return), for `std::isspace`, `QString::trimmed` and `str.strip` alike. `str.strip` also removes the separators `\x1c` to `\x1f`, `\x85` and the Unicode spaces, and `QString::trimmed` removes `\x85`, `\xa0` and the Unicode spaces; none of these are modelled.
- `std::getline` splitting of the `.env` file is left out. Its lines are a parameter.
- EnvLoader.FindEnvDirectory and EnvLoader.Load require a non-empty ancestor chain, because the current directory always exists. The root test is "last element of the chain".
- The `errorOccurred` signal is an append-only list of its texts. The window's slot only logs them.
- `load_model()` and `predict()` of the worker are opaque. Their outcome and the predictor are parameters, with file I/O, pickle, numpy and sklearn not modelled. Printing is not modelled either; the transcript holds the printed values.
- Python exception texts are modelled only for the lookups the loop performs: `KeyError` renders as the quoted key, `TypeError` follows CPython 3.11 wording. Other exceptions keep the text their parameter gives.
- The training pipeline (`model/src/model_training.py`) is left out entirely.
- In the window, widget layout, styling and message boxes are left out. So are the click handler's display text and its probability complement (`onPredictClicked`) and the clear button (`onClearClicked`), which decide nothing the model states.
- `float` narrowing of typed values is left out. `toFloat` answers a real number.
- Header files only declare what is modelled here. The stale duplicate bridge header and the never-defined `validateAndCollect` have no behaviour to model.
- Threading is left out. Every call is sequential, as in the application.

=== FILE: dto.dfy ===
/** The two records the bridge hands to the window. */
module Dto {

  /** What the worker reports about its model. `features` is the positional
      contract of a prediction request; `numFeatures` is carried as reported and
      never compared with it. */
  datatype ModelInfo = ModelInfo(
    modelName: string,
    features: seq<string>,
    numFeatures: int,
    accuracy: real,
    precision: real,
    recall: real,
    f1Score: real)

  /** The value-initialised `ModelInfo{}`: the "metadata unavailable" answer. */
  const EmptyModelInfo := ModelInfo("", [], 0, 0.0, 0.0, 0.0, 0.0)

  /** One prediction attempt. `prediction` and `probability` are meaningful only
      when `success` holds; `errorMessage` only when it does not. */
  datatype PredictionResult = PredictionResult(
    success: bool,
    prediction: int,
    probability: real,
    errorMessage: string)
}

=== FILE: env_loader.dfy ===
/** `EnvLoader::load`: find the nearest `.env` file and read `KEY=VALUE` lines
    into a map.

    The filesystem is a parameter: the directories from the current one up to the
    root, nearest first; whether a directory holds an `.env` entry; and the lines
    of the file found (as `std::getline` delivers them, without line feeds). */
module EnvLoader {
  import opened Results
  import opened Text

  /** At most this many directories are searched. */
  const MaxDepth := 10
  const NotFound := "Could not find env file"

  /** The search loop: the index of the nearest directory, among the first
      `MaxDepth` of the chain, that holds an `.env` entry. */
  method FindEnvDirectory(ancestors: seq<string>, hasEnvFile: string -> bool) returns (r: Option<nat>)
    requires |ancestors| > 0
    ensures r.Some? ==> r.value < MaxDepth && r.value < |ancestors| && hasEnvFile(ancestors[r.value])
    ensures r.Some? ==> forall k :: 0 <= k < r.value ==> !hasEnvFile(ancestors[k])
    ensures r.None? <==> forall k :: 0 <= k < MaxDepth && k < |ancestors| ==> !hasEnvFile(ancestors[k])
  {
    var depth := MaxDepth;
    var i := 0;
    while depth > 0
      invariant 0 <= depth <= MaxDepth && i + depth == MaxDepth
      invariant i < |ancestors|
      invariant forall k :: 0 <= k < i ==> !hasEnvFile(ancestors[k])
    {
      depth := depth - 1;
      if hasEnvFile(ancestors[i]) {
        return Some(i);
      }
      if i + 1 == |ancestors| {
        // The root has no parent.
        return None;
      }
      i := i + 1;
    }
    return None;
  }

  /** Removes one pair of double quotes around a value of at least two characters. */
  function Unquote(value: string): string {
    if |value| >= 2 && value[0] == '"' && value[|value| - 1] == '"' then value[1..|value| - 1] else value
  }

  /** One line: `None` for a blank line, a comment or a line without `=`; otherwise
      the trimmed text before the first `=` as the key and the trimmed,
      unquoted text after it as the value. */
  function ParseLine(line: string): (r: Option<(string, string)>)
    ensures var t := Trim(line);
      r.None? <==> t == "" || t[0] == '#' || '=' !in t
    ensures r.Some? ==> '=' !in r.value.0 && NoEdgeSpace(r.value.0)
  {
    var t := Trim(line);
    if t == "" || t[0] == '#' then None
    else match IndexOf(t, '=')
      case None => None
      case Some(p) =>
        var key := Trim(t[..p]);
        assert '=' !in key by {
          var i, j :| Cut(t[..p], i, j) && key == t[..p][i..j];
        }
        Some((key, Unquote(Trim(t[p + 1..]))))
  }

  /** The key is everything before the first `=` and the value everything after
      it, so a value may itself contain `=` and a line `=v` has the empty key. */
  lemma ParseLineSplitsAtFirstEquals(line: string)
    ensures var t := Trim(line);
      ParseLine(line).Some? ==>
      exists p :: && 0 <= p < |t| && t[p] == '=' && '=' !in t[..p]
                  && ParseLine(line).value == (Trim(t[..p]), Unquote(Trim(t[p + 1..])))
  {
    var t := Trim(line);
    if ParseLine(line).Some? {
      var p := IndexOf(t, '=').value;
      assert ParseLine(line).value == (Trim(t[..p]), Unquote(Trim(t[p + 1..])));
    }
  }

  /** What each line assigns, in file order. */
  function Assignments(lines: seq<string>): (a: seq<Option<(string, string)>>)
    ensures |a| == |lines|
    ensures forall i :: 0 <= i < |lines| ==> a[i] == ParseLine(lines[i])
  {
    seq(|lines|, i requires 0 <= i < |lines| => ParseLine(lines[i]))
  }

  /** The map after one more assignment: it overwrites its key and nothing else. */
  function Assign(env: map<string, string>, entry: Option<(string, string)>): (r: map<string, string>)
    ensures entry.None? ==> r == env
    ensures entry.Some? ==>
      && r.Keys == env.Keys + {entry.value.0}
      && r[entry.value.0] == entry.value.1
      && forall other :: other in env && other != entry.value.0 ==> r[other] == env[other]
  {
    match entry
    case None => env
    case Some((key, value)) => env[key := value]
  }

  /** The map after all assignments, applied in order. */
  function Apply(entries: seq<Option<(string, string)>>): map<string, string> {
    if |entries| == 0 then map[] else Assign(Apply(entries[..|entries| - 1]), entries[|entries| - 1])
  }

  /** The map a file's lines produce. */
  function ParseLines(lines: seq<string>): map<string, string> {
    Apply(Assignments(lines))
  }

  predicate AssignsKey(entry: Option<(string, string)>, key: string) {
    entry.Some? && entry.value.0 == key
  }

  /** Some entry assigns `value` to `key` and no later entry assigns `key`. */
  ghost predicate LastAssignment(entries: seq<Option<(string, string)>>, key: string, value: string) {
    exists i :: && 0 <= i < |entries| && entries[i] == Some((key, value))
                && forall j :: i < j < |entries| ==> !AssignsKey(entries[j], key)
  }

  /** The last assignment to a key wins: a key is in the map exactly when some
      entry assigns it, and then its value is the one of the last such entry. */
  lemma {:induction false} LastAssignmentWins(entries: seq<Option<(string, string)>>, key: string)
    ensures key in Apply(entries) <==> exists i :: 0 <= i < |entries| && AssignsKey(entries[i], key)
    ensures key in Apply(entries) ==> LastAssignment(entries, key, Apply(entries)[key])
  {
    if |entries| > 0 {
      var n := |entries| - 1;
      var front := entries[..n];
      LastAssignmentWins(front, key);
      assert forall i :: 0 <= i < n ==> front[i] == entries[i];
      if AssignsKey(entries[n], key) {
        assert LastAssignment(entries, key, Apply(entries)[key]);
      } else if key in Apply(front) {
        var i :| 0 <= i < |front| && front[i] == Some((key, Apply(front)[key]))
          && forall j :: i < j < |front| ==> !AssignsKey(front[j], key);
        assert entries[i] == Some((key, Apply(entries)[key]));
      }
    }
  }

  /** `load()`: the map of the nearest `.env` file, or the error thrown when
      none is found within `MaxDepth` directories. */
  method Load(ancestors: seq<string>, hasEnvFile: string -> bool, readLines: string -> seq<string>)
    returns (r: Result<map<string, string>, string>)
    requires |ancestors| > 0
    ensures r.Err? <==> forall k :: 0 <= k < MaxDepth && k < |ancestors| ==> !hasEnvFile(ancestors[k])
    ensures r.Err? ==> r.error == NotFound
    ensures r.Ok? ==>
      exists d :: && 0 <= d < MaxDepth && d < |ancestors| && hasEnvFile(ancestors[d])
                  && (forall k :: 0 <= k < d ==> !hasEnvFile(ancestors[k]))
                  && r.value == ParseLines(readLines(ancestors[d]))
  {
    var found := FindEnvDirectory(ancestors, hasEnvFile);
    if found.None? {
      return Err(NotFound);
    }
    var lines := readLines(ancestors[found.value]);
    var env: map<string, string> := map[];
    var i := 0;
    while i < |lines|
      invariant 0 <= i <= |lines|
      invariant env == Apply(Assignments(lines)[..i])
    {
      assert Assignments(lines)[..i + 1][..i] == Assignments(lines)[..i];
      env := Assign(env, ParseLine(lines[i]));
      i := i + 1;
    }
    assert Assignments(lines)[..i] == Assignments(lines);
    return Ok(env);
  }

  /** A line with no edge whitespace, not a comment, split at its first `=`. */
  lemma ParseTrimmedLine(line: string, p: nat)
    requires NoEdgeSpace(line) && |line| > 0 && line[0] != '#'
    requires p < |line| && line[p] == '=' && '=' !in line[..p]
    ensures ParseLine(line) == Some((Trim(line[..p]), Unquote(Trim(line[p + 1..]))))
  {
    TrimOfTrimmed(line);
    assert IndexOf(line, '=') == Some(p);
  }

  /** How an assignment is written with its value in double quotes. */
  function Render(key: string, value: string): string {
    key + "=" + Quote(value)
  }

  function Quote(value: string): string {
    "\"" + value + "\""
  }

  /** The quoted value, trimmed and unquoted, is the value again. */
  lemma QuotedValueReadsBack(value: string)
    ensures Unquote(Trim(Quote(value))) == value
  {
    var quoted := Quote(value);
    assert NoEdgeSpace(quoted);
    TrimOfTrimmed(quoted);
    assert quoted[1..|quoted| - 1] == value;
  }

  /** A rendered line starts with the key (or the `=` when the key is empty),
      ends with a quote, and has its first `=` right after the key. */
  lemma RenderedLineShape(key: string, value: string)
    requires NoEdgeSpace(key) && '=' !in key
    ensures var line := Render(key, value);
      && line[0] == (if |key| > 0 then key[0] else '=')
      && line[|line| - 1] == '"'
      && line[..|key|] == key && line[|key|] == '=' && line[|key| + 1..] == Quote(value)
  {
    var line := Render(key, value);
    assert line == key + "=" + Quote(value);
  }

  /** A line written as `key="value"` reads back as exactly that pair, for any
      value, even one with `=`, quotes or edge whitespace inside the quotes. */
  lemma RenderedLineRoundTrip(key: string, value: string)
    requires NoEdgeSpace(key) && '=' !in key && (|key| == 0 || key[0] != '#')
    ensures ParseLine(Render(key, value)) == Some((key, value))
  {
    var quoted := Quote(value);
    var line := Render(key, value);
    RenderedLineShape(key, value);
    assert NoEdgeSpace(line) && |line| > 0 && line[0] != '#';
    ParseTrimmedLine(line, |key|);
    assert line[..|key|] == key && line[|key| + 1..] == quoted;
    TrimOfTrimmed(key);
    QuotedValueReadsBack(value);
  }

  /** Only double quotes are removed, and only as a matching outer pair. */
  lemma UnquoteOnlyDoubleQuotes(value: string)
    ensures Unquote(Quote(value)) == value
    ensures (|value| < 2 || value[0] != '"' || value[|value| - 1] != '"') ==> Unquote(value) == value
  {
    assert Quote(value)[1..|value| + 1] == value;
  }
}

=== FILE: json.dfy ===
/** JSON values (RFC 8259) as both sides of the line protocol see them, and the two
    lookup primitives the sides use on objects: the C++ side's typed
    `value(key, default)` and the Python side's `obj[key]`. Parsing and printing are
    foreign; they appear elsewhere only as function parameters. */
module Json {
  import opened Results

  /** Numbers keep the integer/floating distinction both JSON libraries make
      (`1` against `1.0`); an object has one value per key. */
  datatype Json =
    | JNull
    | JBool(b: bool)
    | JInt(i: int)
    | JFloat(r: real)
    | JString(s: string)
    | JArray(items: seq<Json>)
    | JObject(fields: map<string, Json>)

  /** `static_cast<int>` of a double: truncation toward zero. */
  function TruncateToInt(r: real): (n: int)
    ensures 0.0 <= r ==> n as real <= r < n as real + 1.0
    ensures r < 0.0 ==> n as real - 1.0 < r <= n as real
  {
    if r >= 0.0 then r.Floor else -((-r).Floor)
  }

  /** `get<int>()` of the C++ library: any number (a floating one truncated) or a
      boolean converts; anything else raises the library's type error. */
  function AsInt(j: Json): Option<int> {
    match j
    case JInt(i) => Some(i)
    case JFloat(r) => Some(TruncateToInt(r))
    case JBool(b) => Some(if b then 1 else 0)
    case _ => None
  }

  /** `get<double>()` of the C++ library: numbers only. */
  function AsDouble(j: Json): Option<real> {
    match j
    case JInt(i) => Some(i as real)
    case JFloat(r) => Some(r)
    case _ => None
  }

  /** `get<std::string>()` of the C++ library: strings only. */
  function AsString(j: Json): Option<string> {
    match j
    case JString(s) => Some(s)
    case _ => None
  }

  /** `obj.value(key, default)` of the C++ library for a string default. A key that
      is present with a value of another type raises a type error, reported here
      as the offending key. */
  function ValueString(fields: map<string, Json>, key: string, default: string): (r: Result<string, string>)
    ensures key !in fields ==> r == Ok(default)
    ensures key in fields ==> (r.Ok? <==> fields[key].JString?)
    ensures r.Ok? && key in fields ==> fields[key] == JString(r.value)
    ensures r.Err? ==> r.error == key
  {
    if key !in fields then Ok(default)
    else match AsString(fields[key])
      case Some(s) => Ok(s)
      case None => Err(key)
  }

  /** The values `get<int>()` converts: numbers and booleans. */
  predicate ConvertsToInt(j: Json) {
    j.JInt? || j.JFloat? || j.JBool?
  }

  /** The values `get<double>()` converts: numbers only. */
  predicate IsNumber(j: Json) {
    j.JInt? || j.JFloat?
  }

  /** `obj.value(key, default)` for an `int` default: a floating member is
      truncated, a boolean becomes 0 or 1, and any other member is a type error. */
  function ValueInt(fields: map<string, Json>, key: string, default: int): (r: Result<int, string>)
    ensures key !in fields ==> r == Ok(default)
    ensures r.Err? <==> key in fields && !ConvertsToInt(fields[key])
    ensures r.Err? ==> r.error == key
    ensures key in fields && fields[key].JInt? ==> r == Ok(fields[key].i)
    ensures key in fields && fields[key].JFloat? ==> r == Ok(TruncateToInt(fields[key].r))
    ensures key in fields && fields[key].JBool? ==> r == Ok(if fields[key].b then 1 else 0)
  {
    if key !in fields then Ok(default)
    else match AsInt(fields[key])
      case Some(n) => Ok(n)
      case None => Err(key)
  }

  /** `obj.value(key, default)` for a `double` default: an integer member is
      widened, and any member that is not a number is a type error. */
  function ValueDouble(fields: map<string, Json>, key: string, default: real): (r: Result<real, string>)
    ensures key !in fields ==> r == Ok(default)
    ensures r.Err? <==> key in fields && !IsNumber(fields[key])
    ensures r.Err? ==> r.error == key
    ensures key in fields && fields[key].JInt? ==> r == Ok(fields[key].i as real)
    ensures key in fields && fields[key].JFloat? ==> r == Ok(fields[key].r)
  {
    if key !in fields then Ok(default)
    else match AsDouble(fields[key])
      case Some(x) => Ok(x)
      case None => Err(key)
  }

  /** Python's `obj[key]` on a value produced by `json.loads`/`json.load`: the
      member of a dict, or the text `str(e)` of the exception raised otherwise
      (a `KeyError` renders as the quoted key; the `TypeError` wording is that of
      CPython 3.11). */
  function Subscript(j: Json, key: string): (r: Result<Json, string>)
    ensures r.Ok? <==> j.JObject? && key in j.fields
    ensures r.Ok? ==> r.value == j.fields[key]
    ensures j.JObject? && key !in j.fields ==> r == Err("'" + key + "'")
  {
    match j
    case JObject(fields) => if key in fields then Ok(fields[key]) else Err("'" + key + "'")
    case JArray(_) => Err("list indices must be integers or slices, not str")
    case JString(_) => Err("string indices must be integers, not 'str'")
    case JInt(_) => Err("'int' object is not subscriptable")
    case JFloat(_) => Err("'float' object is not subscriptable")
    case JBool(_) => Err("'bool' object is not subscriptable")
    case JNull => Err("'NoneType' object is not subscriptable")
  }
}

=== FILE: main_window.dfy ===
/** The parts of the main window that decide something: whether the window opens,
    how each feature row is labelled, and how the typed texts become the feature
    vector of a prediction request. Layout and styling are not modelled.

    `toFloat` is `QString::toFloat`: the value of a text, or `None` when the text
    is not a number. */
module MainWindow {
  import opened Results
  import opened Text
  import opened Json
  import opened Dto
  import PythonBridge

  /** The worker script the window starts. */
  const Script := "predict_service.py"
  const InitializeFailed := "failed to initialize python bridge"
  const InfoUnavailable := "failed to load model info"

  /** Human-readable labels for the features the shipped model uses. */
  const FeatureDescriptions: map<string, string> := map[
    "age" := "age (years)",
    "sex" := "sex (0=female, 1=male)",
    "cp" := "chest pain type (0-3)",
    "trestbps" := "resting blood pressure (mm hg)",
    "chol" := "cholesterol (mg/dl)",
    "fbs" := "fasting blood sugar >120 (0/1)",
    "restecg" := "resting ecg (0-2)",
    "thalch" := "max heart rate",
    "exang" := "exercise angina (0/1)",
    "oldpeak" := "st depression",
    "slope" := "st slope (0-2)",
    "ca" := "vessels colored (0-3)",
    "thal" := "thalassemia (1-3)"
  ]

  /** What the constructor leaves behind: a window closed with a message box, a
      shown form for the model, or a constructor that did not return because the
      JSON library raised a type error (for the key named). */
  datatype Window =
    | Closed(message: string, bridge: PythonBridge.Bridge)
    | Shown(info: ModelInfo, bridge: PythonBridge.Bridge)
    | Crashed(key: string)

  /** The constructor: start the worker, fetch the model info once, and give up
      unless both succeed and the model has at least one feature. */
  function Open(started: bool, infoReply: Option<string>, parse: string -> Option<Json>): (w: Window)
    ensures !started ==>
      && w.Closed? && w.message == InitializeFailed
      && w.bridge.events == [PythonBridge.Spawned(PythonBridge.Interpreter, [Script])]
    ensures started && infoReply.None? ==> w.Closed? && w.message == InfoUnavailable
    ensures w.Shown? ==> started && infoReply.Some? && w.info.features != []
    ensures w.Shown? ==>
      && w.bridge.Ready()
      && w.bridge.events == [PythonBridge.Spawned(PythonBridge.Interpreter, [Script]), PythonBridge.Wrote("INFO\n")]
    ensures started ==> w == Fetch(PythonBridge.Initialize(PythonBridge.Constructed, Script, true).0, infoReply, parse)
  {
    var init := PythonBridge.Initialize(PythonBridge.Constructed, Script, started);
    if !init.1 then Closed(InitializeFailed, init.0)
    else Fetch(init.0, infoReply, parse)
  }

  /** The rest of the constructor on a started bridge: one `INFO` exchange, and
      the form only for a model with at least one feature. */
  function Fetch(b: PythonBridge.Bridge, infoReply: Option<string>, parse: string -> Option<Json>): (w: Window)
    requires b.Ready()
    ensures infoReply.None? ==> w.Closed? && w.message == InfoUnavailable
    ensures w.Shown? ==> infoReply.Some? && w.info.features != []
    ensures w.Shown? ==> w.bridge.Ready() && w.bridge.events == b.events + [PythonBridge.Wrote("INFO\n")]
    ensures var fetched := PythonBridge.GetModelInfo(b, infoReply, parse);
      && (fetched.1.Err? ==> w == Crashed(fetched.1.error))
      && (fetched.1.Ok? && fetched.1.value.features == [] ==> w == Closed(InfoUnavailable, fetched.0))
      && (fetched.1.Ok? && fetched.1.value.features != [] ==> w == Shown(fetched.1.value, fetched.0))
  {
    var fetched := PythonBridge.GetModelInfo(b, infoReply, parse);
    match fetched.1
    case Err(key) => Crashed(key)
    case Ok(info) =>
      if info.features == [] then Closed(InfoUnavailable, fetched.0)
      else Shown(info, fetched.0)
  }

  /** The label of a feature's row: its description when there is one, else the
      raw feature name. */
  function Label(feature: string, descriptions: map<string, string>): string {
    if feature in descriptions then descriptions[feature] else feature
  }

  /** The labels of the form's rows, one per feature in model order. */
  function RowLabels(features: seq<string>, descriptions: map<string, string>): (labels: seq<string>)
    ensures |labels| == |features|
    ensures forall i :: 0 <= i < |features| && features[i] in descriptions ==> labels[i] == descriptions[features[i]]
    ensures forall i :: 0 <= i < |features| && features[i] !in descriptions ==> labels[i] == features[i]
  {
    seq(|features|, i requires 0 <= i < |features| => Label(features[i], descriptions))
  }

  /** With the shipped descriptions, a known feature is labelled with its
      description and an unknown one with its own name. */
  lemma ShippedRowLabels()
    ensures RowLabels(["age", "thal", "chol", "bmi"], FeatureDescriptions)
      == ["age (years)", "thalassemia (1-3)", "cholesterol (mg/dl)", "bmi"]
  {
  }

  /** The `inputFields` map after the form is built: each feature name maps to the
      text of the last row created for it. */
  function InputFields(features: seq<string>, texts: seq<string>): (fields: map<string, string>)
    requires |texts| == |features|
    ensures forall i :: 0 <= i < |features| ==> features[i] in fields
    ensures forall name :: name in fields ==> name in features
  {
    if |features| == 0 then map[]
    else
      var n := |features| - 1;
      var front := InputFields(features[..n], texts[..n]);
      assert forall i :: 0 <= i < n ==> features[..n][i] == features[i] && texts[..n][i] == texts[i];
      assert forall name :: name in features[..n] ==> name in features;
      var fields := front[features[n] := texts[n]];
      fields
  }

  /** A feature name that appears more than once keeps the field of its last row:
      each name maps to the text of the row after which it does not occur again. */
  lemma {:induction false} InputFieldsKeepLastRow(features: seq<string>, texts: seq<string>)
    requires |texts| == |features|
    ensures forall i :: 0 <= i < |features| && features[i] !in features[i + 1..] ==>
      InputFields(features, texts)[features[i]] == texts[i]
  {
    if |features| > 0 {
      var n := |features| - 1;
      InputFieldsKeepLastRow(features[..n], texts[..n]);
      forall i | 0 <= i < |features| && features[i] !in features[i + 1..]
        ensures InputFields(features, texts)[features[i]] == texts[i]
      {
        if i < n {
          LastOccurrenceInFront(features, i);
          assert features[..n][i] == features[i] && texts[..n][i] == texts[i];
        }
      }
    }
  }

  /** A name that does not occur again after position `i` does not occur again
      in the front of the list either, and is not the last name. */
  lemma LastOccurrenceInFront(features: seq<string>, i: nat)
    requires i < |features| - 1 && features[i] !in features[i + 1..]
    ensures var n := |features| - 1;
      features[..n][i] !in features[..n][i + 1..] && features[i] != features[n]
  {
    var n := |features| - 1;
    assert features[..n][i + 1..] == features[i + 1..n];
    assert features[n] == features[i + 1..][n - i - 1];
  }

  /** Why a feature cannot be read, checked in the order `collectFeatures` checks:
      no field, an empty trimmed text, a text that is not a number. */
  function Problem(feature: string, fields: map<string, string>, toFloat: string -> Option<real>): Option<string> {
    if feature !in fields then Some("missing input field: " + feature)
    else if Trim(fields[feature]) == "" then Some("empty field: " + feature)
    else if toFloat(Trim(fields[feature])).None? then Some("invalid value for: " + feature)
    else None
  }

  /** `collectFeatures()`: the positional feature vector, or the message of the
      first feature, in model order, that cannot be read. */
  method CollectFeatures(features: seq<string>, fields: map<string, string>, toFloat: string -> Option<real>)
    returns (r: Result<seq<real>, string>)
    ensures r.Ok? <==> forall i :: 0 <= i < |features| ==> Problem(features[i], fields, toFloat).None?
    ensures r.Ok? ==> |r.value| == |features|
    ensures r.Ok? ==> forall i :: 0 <= i < |features| ==>
      features[i] in fields && toFloat(Trim(fields[features[i]])) == Some(r.value[i])
    ensures r.Err? ==>
      exists i :: && 0 <= i < |features|
                  && Problem(features[i], fields, toFloat) == Some(r.error)
                  && forall j :: 0 <= j < i ==> Problem(features[j], fields, toFloat).None?
  {
    var values: seq<real> := [];
    var i := 0;
    while i < |features|
      invariant 0 <= i <= |features| && |values| == i
      invariant forall j :: 0 <= j < i ==> Problem(features[j], fields, toFloat).None?
      invariant forall j :: 0 <= j < i ==>
        features[j] in fields && toFloat(Trim(fields[features[j]])) == Some(values[j])
    {
      var feature := features[i];
      if feature !in fields {
        return Err("missing input field: " + feature);
      }
      var text := Trim(fields[feature]);
      if text == "" {
        return Err("empty field: " + feature);
      }
      var value := toFloat(text);
      if value.None? {
        return Err("invalid value for: " + feature);
      }
      values := values + [value.value];
      i := i + 1;
    }
    return Ok(values);
  }

  /** A form built from the model's own feature list has a field for every
      feature, so collecting from it never reports a missing field. */
  lemma BuiltFormHasEveryField(features: seq<string>, texts: seq<string>, toFloat: string -> Option<real>)
    requires |texts| == |features|
    ensures forall i :: 0 <= i < |features| ==>
      Problem(features[i], InputFields(features, texts), toFloat) != Some("missing input field: " + features[i])
  {
    var fields := InputFields(features, texts);
    forall i | 0 <= i < |features|
      ensures Problem(features[i], fields, toFloat) != Some("missing input field: " + features[i])
    {
      var name := features[i];
      assert ("missing input field: " + name)[0] == 'm';
      assert ("empty field: " + name)[0] == 'e';
      assert ("invalid value for: " + name)[0] == 'i';
    }
  }
}

=== FILE: predict_service.dfy ===
/** The worker's half of the line protocol: the loop that reads command lines and
    prints one JSON envelope per command.

    What the loop cannot see is a parameter: the outcome of loading the model
    (the metadata object, or the text of the exception), `json.loads` and the
    predictor over the loaded model and scaler. Printing is `json.dumps` of the
    envelope on a line of its own; the model keeps the envelopes themselves. */
module PredictService {
  import opened Results
  import opened Text
  import opened Json

  const InitErrorPrefix := "initialization error: "

  /** The collaborators of the loop: `json.loads`, whose failure carries the text of
      its exception, and `predict(features, model, scaler, uses_scaling)`, which
      answers the class and the probability of class 1, or fails with the text of
      its exception. */
  datatype Runtime = Runtime(
    loads: string -> Result<Json, string>,
    predictor: (Json, Json) -> Result<(int, real), string>)

  /** What the process printed, in order, and its exit status. */
  datatype Transcript = Transcript(output: seq<Json>, exitStatus: int)

  function ErrorEnvelope(message: string): Json {
    JObject(map["status" := JString("error"), "message" := JString(message)])
  }

  function PredictionEnvelope(prediction: int, probability: real): Json {
    JObject(map["status" := JString("success"), "prediction" := JInt(prediction), "probability" := JFloat(probability)])
  }

  function InfoEnvelope(data: map<string, Json>): Json {
    JObject(map["status" := JString("success"), "data" := JObject(data)])
  }

  ghost predicate IsErrorEnvelope(j: Json) {
    && j.JObject? && j.fields.Keys == {"status", "message"}
    && j.fields["status"] == JString("error") && j.fields["message"].JString?
  }

  ghost predicate IsPredictionEnvelope(j: Json) {
    && j.JObject? && j.fields.Keys == {"status", "prediction", "probability"}
    && j.fields["status"] == JString("success")
    && j.fields["prediction"].JInt? && j.fields["probability"].JFloat?
  }

  ghost predicate IsInfoEnvelope(j: Json) {
    && j.JObject? && j.fields.Keys == {"status", "data"}
    && j.fields["status"] == JString("success")
    && j.fields["data"].JObject?
    && j.fields["data"].fields.Keys == {"model_name", "features", "num_features", "metrics"}
  }

  /** The `data` of an `INFO` answer, looked up in the metadata in the order the
      dict literal evaluates them. A failed lookup is an exception that is not
      caught inside the loop. */
  function InfoData(metadata: Json): (r: Result<map<string, Json>, string>)
    ensures r.Ok? <==> metadata.JObject? && {"best_model", "features", "num_features", "metrics"} <= metadata.fields.Keys
    ensures r.Ok? ==>
      && r.value.Keys == {"model_name", "features", "num_features", "metrics"}
      && r.value["model_name"] == metadata.fields["best_model"]
      && r.value["features"] == metadata.fields["features"]
      && r.value["num_features"] == metadata.fields["num_features"]
      && r.value["metrics"] == metadata.fields["metrics"]
  {
    var name :- Subscript(metadata, "best_model");
    var features :- Subscript(metadata, "features");
    var count :- Subscript(metadata, "num_features");
    var metrics :- Subscript(metadata, "metrics");
    Ok(map["model_name" := name, "features" := features, "num_features" := count, "metrics" := metrics])
  }

  /** The body of the inner `try` for a prediction command: decode the line, take
      its `features`, look up `uses_scaling`, run the predictor. */
  function Prediction(rt: Runtime, metadata: Json, command: string): (r: Result<(int, real), string>)
    ensures rt.loads(command).Err? ==> r == Err(rt.loads(command).error)
    ensures rt.loads(command).Ok? && rt.loads(command).value.JObject? && "features" !in rt.loads(command).value.fields
            ==> r == Err("'features'")
    ensures r.Ok? ==>
      && rt.loads(command).Ok?
      && var data := rt.loads(command).value;
      && data.JObject? && "features" in data.fields
      && metadata.JObject? && "uses_scaling" in metadata.fields
      && rt.predictor(data.fields["features"], metadata.fields["uses_scaling"]) == r
    ensures rt.loads(command).Ok? && rt.loads(command).value.JObject? && "features" in rt.loads(command).value.fields
            && metadata.JObject? ==>
      && ("uses_scaling" in metadata.fields ==>
            r == rt.predictor(rt.loads(command).value.fields["features"], metadata.fields["uses_scaling"]))
      && ("uses_scaling" !in metadata.fields ==> r == Err("'uses_scaling'"))
  {
    var data :- rt.loads(command);
    assert "'" + "features" + "'" == "'features'";
    assert "'" + "uses_scaling" + "'" == "'uses_scaling'";
    var features :- Subscript(data, "features");
    var usesScaling :- Subscript(metadata, "uses_scaling");
    rt.predictor(features, usesScaling)
  }

  /** The envelope of a prediction command: success with both values or an error
      with a message, never both; every exception is caught. */
  function PredictionReply(rt: Runtime, metadata: Json, command: string): (r: Json)
    ensures IsPredictionEnvelope(r) || IsErrorEnvelope(r)
    ensures IsPredictionEnvelope(r) <==> Prediction(rt, metadata, command).Ok?
    ensures IsPredictionEnvelope(r) ==>
      Prediction(rt, metadata, command) == Ok((r.fields["prediction"].i, r.fields["probability"].r))
    ensures IsErrorEnvelope(r) ==> Prediction(rt, metadata, command) == Err(r.fields["message"].s)
  {
    match Prediction(rt, metadata, command)
    case Ok((prediction, probability)) => PredictionEnvelope(prediction, probability)
    case Err(message) => ErrorEnvelope(message)
  }

  /** The answer to one command (a stripped, non-blank line other than `EXIT`).
      `Err` is an exception that leaves the loop; only `INFO` can raise one. */
  function Respond(rt: Runtime, metadata: Json, command: string): (r: Result<Json, string>)
    ensures command != "INFO" ==> r.Ok? && (IsPredictionEnvelope(r.value) || IsErrorEnvelope(r.value))
    ensures command != "INFO" ==> r == Ok(PredictionReply(rt, metadata, command))
    ensures command == "INFO" ==> (r.Ok? <==> InfoData(metadata).Ok?)
    ensures command == "INFO" && r.Ok? ==> IsInfoEnvelope(r.value) && r.value == InfoEnvelope(InfoData(metadata).value)
    ensures command == "INFO" && r.Err? ==> r.error == InfoData(metadata).error
  {
    if command == "INFO" then
      var data :- InfoData(metadata);
      Ok(InfoEnvelope(data))
    else
      Ok(PredictionReply(rt, metadata, command))
  }

  /** The commands the loop dispatches: every line stripped, blank ones skipped,
      and nothing from the first `EXIT` on. */
  function Commands(lines: seq<string>): (commands: seq<string>)
    ensures |commands| <= |lines|
    ensures forall k :: 0 <= k < |commands| ==>
      commands[k] != "" && commands[k] != "EXIT" && NoEdgeSpace(commands[k])
  {
    if |lines| == 0 then []
    else
      var command := Trim(lines[0]);
      if command == "" then Commands(lines[1..])
      else if command == "EXIT" then []
      else [command] + Commands(lines[1..])
  }

  /** The reference transcript of a command sequence: one envelope per command in
      order, until a command raises past the loop, which prints the
      initialization error envelope and exits with status 1. */
  function Replies(rt: Runtime, metadata: Json, commands: seq<string>): (t: Transcript)
    ensures |t.output| <= |commands|
    ensures t.exitStatus == 0 || t.exitStatus == 1
    ensures t.exitStatus == 0 <==> forall k :: 0 <= k < |commands| ==> Respond(rt, metadata, commands[k]).Ok?
    ensures t.exitStatus == 0 ==> |t.output| == |commands|
  {
    if |commands| == 0 then Transcript([], 0)
    else match Respond(rt, metadata, commands[0])
      case Err(message) => Transcript([ErrorEnvelope(InitErrorPrefix + message)], 1)
      case Ok(envelope) =>
        var rest := Replies(rt, metadata, commands[1..]);
        Transcript([envelope] + rest.output, rest.exitStatus)
  }

  /** `main()`: load the model, then serve the input lines. */
  method Serve(rt: Runtime, loaded: Result<Json, string>, lines: seq<string>) returns (t: Transcript)
    ensures loaded.Err? ==> t == Transcript([ErrorEnvelope(InitErrorPrefix + loaded.error)], 1)
    ensures loaded.Ok? ==> t == Replies(rt, loaded.value, Commands(lines))
  {
    if loaded.Err? {
      return Transcript([ErrorEnvelope(InitErrorPrefix + loaded.error)], 1);
    }
    var metadata := loaded.value;
    var output: seq<Json> := [];
    var i := 0;
    while i < |lines|
      invariant 0 <= i <= |lines|
      invariant Replies(rt, metadata, Commands(lines)) ==
        var rest := Replies(rt, metadata, Commands(lines[i..]));
        Transcript(output + rest.output, rest.exitStatus)
    {
      assert lines[i..][1..] == lines[i + 1..];
      var line := Trim(lines[i]);
      if line == "" {
        i := i + 1;
        continue;
      }
      if line == "EXIT" {
        break;
      }
      var response := Respond(rt, metadata, line);
      if response.Err? {
        return Transcript(output + [ErrorEnvelope(InitErrorPrefix + response.error)], 1);
      }
      output := output + [response.value];
      i := i + 1;
    }
    assert i == |lines| ==> lines[i..] == [];
    return Transcript(output, 0);
  }

  /** No line of `lines` strips to `EXIT`. */
  predicate ExitFree(lines: seq<string>) {
    forall i :: 0 <= i < |lines| ==> Trim(lines[i]) != "EXIT"
  }

  /** Before the first `EXIT`, input is dispatched as a stream: the commands of
      two consecutive chunks are the commands of each, in order. */
  lemma {:induction false} CommandsConcat(a: seq<string>, b: seq<string>)
    requires ExitFree(a)
    ensures Commands(a + b) == Commands(a) + Commands(b)
  {
    if |a| > 0 {
      assert (a + b)[1..] == a[1..] + b;
      CommandsConcat(a[1..], b);
    } else {
      assert a + b == b;
    }
  }

  /** A single line is dispatched as its stripped text, unless that text is
      blank (nothing is dispatched) or `EXIT` (nothing from it on is). With
      `CommandsConcat` and `CommandsStopAtExit` this determines the commands of
      any input. */
  lemma CommandsOfOneLine(line: string, rest: seq<string>)
    ensures Trim(line) != "EXIT" ==> Commands([line]) == (if Trim(line) == "" then [] else [Trim(line)])
    ensures Trim(line) == "EXIT" ==> Commands([line] + rest) == []
  {
    assert [line][1..] == [];
  }

  /** An `EXIT` line ends the dispatch: nothing after it is a command. */
  lemma CommandsStopAtExit(a: seq<string>, exit: string, b: seq<string>)
    requires ExitFree(a) && Trim(exit) == "EXIT"
    ensures Commands(a + [exit] + b) == Commands(a)
  {
    CommandsConcat(a, [exit] + b);
    assert a + [exit] + b == a + ([exit] + b);
  }

  /** While every command can be answered, the transcript has exactly one
      envelope per command, the k-th answering the k-th command, and the process
      ends normally. */
  lemma {:induction false} OneEnvelopePerCommand(rt: Runtime, metadata: Json, commands: seq<string>)
    requires InfoData(metadata).Ok? || "INFO" !in commands
    ensures var t := Replies(rt, metadata, commands);
      && t.exitStatus == 0
      && |t.output| == |commands|
      && forall k :: 0 <= k < |commands| ==>
           Respond(rt, metadata, commands[k]).Ok? && t.output[k] == Respond(rt, metadata, commands[k]).value
  {
    if |commands| > 0 {
      assert "INFO" !in commands ==> "INFO" !in commands[1..];
      OneEnvelopePerCommand(rt, metadata, commands[1..]);
      var t := Replies(rt, metadata, commands);
      forall k | 0 <= k < |commands|
        ensures Respond(rt, metadata, commands[k]).Ok? && t.output[k] == Respond(rt, metadata, commands[k]).value
      {
        if k > 0 {
          assert commands[k] == commands[1..][k - 1];
        }
      }
    }
  }

  /** When the metadata lacks a key the `INFO` answer needs, the first `INFO`
      command ends the process: the commands before it are answered, then one
      initialization error envelope is printed and the exit status is 1. */
  lemma {:induction false} InfoCrashEndsService(rt: Runtime, metadata: Json, before: seq<string>, after: seq<string>)
    requires InfoData(metadata).Err? && "INFO" !in before
    ensures var t := Replies(rt, metadata, before + ["INFO"] + after);
      && t.exitStatus == 1
      && t.output == Replies(rt, metadata, before).output + [ErrorEnvelope(InitErrorPrefix + InfoData(metadata).error)]
  {
    if |before| == 0 {
      assert before + ["INFO"] + after == ["INFO"] + after;
    } else {
      assert (before + ["INFO"] + after)[1..] == before[1..] + ["INFO"] + after;
      assert before[0] in before;
      InfoCrashEndsService(rt, metadata, before[1..], after);
    }
  }
}

=== FILE: protocol.dfy ===
/** The two halves of the line protocol together: what the worker receives from
    the bridge's requests, and what the bridge makes of the worker's envelopes.

    The printers and parsers on either side are parameters; each lemma assumes
    only that the parser reads back what the printer wrote and that a printed
    value occupies one line with no whitespace at its ends. */
module Protocol {
  import opened Results
  import opened Text
  import opened Json
  import opened Dto
  import opened PythonBridge
  import opened PredictService
  import MainWindow

  /** One printed JSON value on its own line, as the reader strips it. */
  lemma TrimLine(text: string)
    requires NoEdgeSpace(text)
    ensures Trim(text + "\n") == text
  {
    var line := text + "\n";
    assert text == line[0..|text|];
    assert Cut(line, 0, |text|);
    TrimUnique(line, text);
  }

  /** The worker dispatches the bridge's request line as one prediction command
      and hands the predictor the feature vector in its original order. */
  lemma WorkerReadsBridgeRequest(rt: Runtime, metadata: Json, features: seq<real>, dump: Json -> string)
    requires var request := dump(PredictRequest(features));
      && rt.loads(request) == Ok(PredictRequest(features))
      && NoEdgeSpace(request) && |request| > 0 && request[0] == '{'
    ensures var request := dump(PredictRequest(features));
      && Commands([request + "\n"]) == [request]
      && (metadata.JObject? && "uses_scaling" in metadata.fields ==>
            Prediction(rt, metadata, request) == rt.predictor(JArray(FeatureArray(features)), metadata.fields["uses_scaling"]))
  {
    var request := dump(PredictRequest(features));
    TrimLine(request);
    assert request != "INFO" && request != "EXIT" by {
      assert "INFO"[0] != '{' && "EXIT"[0] != '{';
    }
    assert [request + "\n"][1..] == [];
  }

  /** The bridge's reading of a prediction envelope agrees with the worker: a
      success envelope becomes a successful result with the same two values, an
      error envelope a failed result carrying the worker's message. */
  lemma BridgeReadsWorkerPrediction(rt: Runtime, metadata: Json, command: string)
    ensures var envelope := PredictionReply(rt, metadata, command);
      match Prediction(rt, metadata, command)
      case Ok(answer) => InterpretPrediction(envelope) == Ok(Accepted(answer))
      case Err(message) => InterpretPrediction(envelope) == Ok(Rejected(message))
  {
  }

  /** Each of the four metrics is present as a floating number. */
  predicate FloatMetrics(metrics: map<string, Json>) {
    && "accuracy" in metrics && metrics["accuracy"].JFloat?
    && "precision" in metrics && metrics["precision"].JFloat?
    && "recall" in metrics && metrics["recall"].JFloat?
    && "f1_score" in metrics && metrics["f1_score"].JFloat?
  }

  /** A `metrics` object holding the four metrics as floating numbers is read as
      those four numbers. */
  lemma ReadsAllMetrics(metrics: map<string, Json>)
    requires FloatMetrics(metrics)
    ensures ReadMetrics(metrics) ==
      Ok((metrics["accuracy"].r, metrics["precision"].r, metrics["recall"].r, metrics["f1_score"].r))
  {
  }

  /** A success envelope whose `data` can be read is accepted as what it reads. */
  lemma InfoEnvelopeAccepted(data: map<string, Json>)
    requires ReadModelInfo(data).Ok?
    ensures InterpretModelInfo(InfoEnvelope(data)) == Ok(Accepted(ReadModelInfo(data).value))
  {
    var j := InfoEnvelope(data);
    assert "status" != "data" by { assert "status"[0] != "data"[0]; }
    assert j.fields["status"] == JString(Success);
    assert j.fields["data"] == JObject(data);
  }

  /** Well-typed metadata: a string model name, an integer feature
      count, an array of feature-name strings, and the four metrics as floating
      numbers. */
  predicate WellTypedMetadata(metadata: Json, name: string, features: seq<string>, count: int, metrics: map<string, Json>) {
    && metadata.JObject?
    && "best_model" in metadata.fields && metadata.fields["best_model"] == JString(name)
    && "num_features" in metadata.fields && metadata.fields["num_features"] == JInt(count)
    && "metrics" in metadata.fields && metadata.fields["metrics"] == JObject(metrics)
    && "features" in metadata.fields && metadata.fields["features"].JArray?
    && |metadata.fields["features"].items| == |features|
    && (forall i :: 0 <= i < |features| ==> metadata.fields["features"].items[i] == JString(features[i]))
    && FloatMetrics(metrics)
  }

  /** The `ModelInfo` such metadata describes. */
  function DescribedModel(name: string, features: seq<string>, count: int, metrics: map<string, Json>): ModelInfo
    requires FloatMetrics(metrics)
  {
    ModelInfo(name, features, count, metrics["accuracy"].r, metrics["precision"].r, metrics["recall"].r, metrics["f1_score"].r)
  }

  /** When the worker's metadata is well typed, the bridge reads its `INFO`
      envelope back as exactly that metadata. */
  lemma BridgeReadsWorkerInfo(metadata: Json, name: string, features: seq<string>, count: int, metrics: map<string, Json>)
    requires WellTypedMetadata(metadata, name, features, count, metrics)
    ensures InfoData(metadata).Ok?
    ensures InterpretModelInfo(InfoEnvelope(InfoData(metadata).value)) ==
      Ok(Accepted(DescribedModel(name, features, count, metrics)))
  {
    var data := InfoData(metadata).value;
    var items := metadata.fields["features"].items;
    var read := StringItems(items);
    assert read.Some? && |read.value| == |features|;
    assert forall i :: 0 <= i < |features| ==> read.value[i] == features[i];
    assert read.value == features;
    ReadsAllMetrics(metrics);
    assert ReadModelInfo(data) == Ok(DescribedModel(name, features, count, metrics));
    InfoEnvelopeAccepted(data);
  }

  /** What `getModelInfo` returns for each reading of the reply. */
  function InfoOutcome(v: Result<Verdict<ModelInfo>, string>): Result<ModelInfo, string> {
    match v
    case Err(key) => Err(key)
    case Ok(Rejected(_)) => Ok(EmptyModelInfo)
    case Ok(Accepted(info)) => Ok(info)
  }

  /** With nothing buffered, `getModelInfo` answers from the first line that
      arrives and leaves the rest buffered. */
  lemma GetModelInfoReadsFirstLine(b: Bridge, text: string, rest: string, parse: string -> Option<Json>)
    requires b.Ready() && b.unread == ""
    requires '\n' !in text && NoEdgeSpace(text)
    ensures var r := GetModelInfo(b, Some(text + "\n" + rest), parse);
      && r.0.unread == rest
      && r.1 == InfoOutcome(InterpretModelInfo(ParseResponse(text, parse)))
      && (InterpretModelInfo(ParseResponse(text, parse)).Ok? && InterpretModelInfo(ParseResponse(text, parse)).value.Accepted?
          ==> r.0.errors == b.errors)
  {
    FirstLineReply(b, "INFO", text, rest);
  }

  /** The `INFO` round trip: the worker answers `INFO` with its metadata, the
      answer arrives as one line, and the bridge's model info is exactly the
      model the metadata describes, with no error emitted. */
  lemma InfoRoundTrip(b: Bridge, rt: Runtime, metadata: Json, name: string, features: seq<string>, count: int,
                      metrics: map<string, Json>, parse: string -> Option<Json>, dumps: Json -> string)
    requires b.Ready() && b.unread == ""
    requires WellTypedMetadata(metadata, name, features, count, metrics)
    requires InfoData(metadata).Ok?
    requires var envelope := InfoEnvelope(InfoData(metadata).value);
      && parse(dumps(envelope)) == Some(envelope)
      && '\n' !in dumps(envelope) && NoEdgeSpace(dumps(envelope)) && dumps(envelope) != ""
    ensures Respond(rt, metadata, "INFO") == Ok(InfoEnvelope(InfoData(metadata).value))
    ensures var r := GetModelInfo(b, Some(dumps(InfoEnvelope(InfoData(metadata).value)) + "\n"), parse);
      && r.1 == Ok(DescribedModel(name, features, count, metrics))
      && r.0.unread == ""
      && r.0.errors == b.errors
  {
    var envelope := InfoEnvelope(InfoData(metadata).value);
    var text := dumps(envelope);
    assert text + "\n" + "" == text + "\n";
    GetModelInfoReadsFirstLine(b, text, "", parse);
    TrimOfTrimmed(text);
    assert ParseResponse(text, parse) == envelope;
    BridgeReadsWorkerInfo(metadata, name, features, count, metrics);
  }

  /** The window opens on the model the worker describes: a started worker whose
      metadata names at least one feature gives a shown form for exactly that
      model. */
  lemma WindowShowsWorkerModel(rt: Runtime, metadata: Json, name: string, features: seq<string>, count: int,
                               metrics: map<string, Json>, parse: string -> Option<Json>, dumps: Json -> string)
    requires WellTypedMetadata(metadata, name, features, count, metrics) && features != []
    requires InfoData(metadata).Ok?
    requires var envelope := InfoEnvelope(InfoData(metadata).value);
      && parse(dumps(envelope)) == Some(envelope)
      && '\n' !in dumps(envelope) && NoEdgeSpace(dumps(envelope)) && dumps(envelope) != ""
    ensures var w := MainWindow.Open(true, Some(dumps(InfoEnvelope(InfoData(metadata).value)) + "\n"), parse);
      w.Shown? && w.info == DescribedModel(name, features, count, metrics)
  {
    var b := Initialize(Constructed, MainWindow.Script, true).0;
    InfoRoundTrip(b, rt, metadata, name, features, count, metrics, parse, dumps);
  }

  /** The worker's answer to `INFO` when its metadata is incomplete is an error
      envelope, which the bridge turns into the empty model info. */
  lemma WorkerInfoCrashGivesEmptyInfo(message: string)
    ensures InterpretModelInfo(ErrorEnvelope(InitErrorPrefix + message)) == Ok(Rejected(InfoNotSuccess))
  {
  }

  /** When the buffer is empty, the answer to a command is the first line of what
      arrives, and everything after that line stays buffered. */
  lemma FirstLineReply(b: Bridge, command: string, text: string, rest: string)
    requires b.Ready() && b.unread == ""
    requires '\n' !in text && NoEdgeSpace(text)
    ensures SendCommand(b, command, Some(text + "\n" + rest)).1 == text
    ensures SendCommand(b, command, Some(text + "\n" + rest)).0.unread == rest
  {
    var buffer := text + "\n" + rest;
    assert "" + buffer == buffer;
    assert buffer[..|text|] == text && buffer[|text|] == '\n';
    assert IndexOf(buffer, '\n') == Some(|text|);
    assert buffer[..|text| + 1] == text + "\n" && buffer[|text| + 1..] == rest;
    TrimLine(text);
  }

  /** What `predict` returns for each reading of the reply. */
  function Outcome(v: Result<Verdict<(int, real)>, string>): Result<PredictionResult, string> {
    match v
    case Err(key) => Err(key)
    case Ok(Rejected(message)) => Ok(PredictionResult(false, 0, 0.0, message))
    case Ok(Accepted((prediction, probability))) => Ok(PredictionResult(true, prediction, probability, ""))
  }

  /** With nothing buffered, `predict` answers from the first line that arrives
      and leaves the rest buffered. */
  lemma PredictReadsFirstLine(b: Bridge, features: seq<real>, text: string, rest: string,
                              parse: string -> Option<Json>, dump: Json -> string)
    requires b.Ready() && b.unread == ""
    requires '\n' !in text && NoEdgeSpace(text)
    ensures var r := Predict(b, features, Some(text + "\n" + rest), parse, dump);
      && r.0.unread == rest
      && r.1 == Outcome(InterpretPrediction(ParseResponse(text, parse)))
  {
    FirstLineReply(b, dump(PredictRequest(features)), text, rest);
  }

  /** What the bridge's `predict` makes of a worker prediction envelope. */
  function Received(answer: Result<(int, real), string>): PredictionResult {
    Outcome(Ok(if answer.Ok? then Accepted(answer.value) else Rejected(answer.error))).value
  }

  /** A whole prediction round trip: the bridge writes the request, the worker
      answers it, the answer arrives as one line, and the bridge's result is the
      worker's prediction, or a failure carrying the worker's message. */
  lemma PredictionRoundTrip(b: Bridge, features: seq<real>, rt: Runtime, metadata: Json,
                            parse: string -> Option<Json>, dump: Json -> string, dumps: Json -> string)
    requires b.Ready() && b.unread == ""
    requires var request := dump(PredictRequest(features));
      && rt.loads(request) == Ok(PredictRequest(features))
      && NoEdgeSpace(request) && |request| > 0 && request[0] == '{'
    requires var envelope := PredictionReply(rt, metadata, dump(PredictRequest(features)));
      && parse(dumps(envelope)) == Some(envelope)
      && '\n' !in dumps(envelope) && NoEdgeSpace(dumps(envelope)) && dumps(envelope) != ""
    ensures var request := dump(PredictRequest(features));
      var envelope := PredictionReply(rt, metadata, request);
      var r := Predict(b, features, Some(dumps(envelope) + "\n"), parse, dump);
      && Commands([request + "\n"]) == [request]
      && r.0.unread == ""
      && r.1 == Ok(Received(Prediction(rt, metadata, request)))
  {
    var request := dump(PredictRequest(features));
    var envelope := PredictionReply(rt, metadata, request);
    var text := dumps(envelope);
    WorkerReadsBridgeRequest(rt, metadata, features, dump);
    FirstLineReply(b, request, text, "");
    assert text + "\n" + "" == text + "\n";
    TrimOfTrimmed(text);
    assert ParseResponse(text, parse) == envelope;
    BridgeReadsWorkerPrediction(rt, metadata, request);
  }

  /** There is no resynchronisation after a timeout: when the late answer to a
      timed-out command arrives together with the next answer, the next command
      receives the late one, and its own answer stays buffered for the command
      after it. */
  lemma LateReplyGoesToNextCommand(b: Bridge, first: string, second: string, late: string, answer: string)
    requires b.Ready() && b.unread == ""
    requires '\n' !in late && NoEdgeSpace(late)
    ensures var timedOut := SendCommand(b, first, None);
      var next := SendCommand(timedOut.0, second, Some(late + "\n" + answer + "\n"));
      && timedOut.1 == ""
      && next.1 == late
      && next.0.unread == answer + "\n"
  {
    var timedOut := SendCommand(b, first, None);
    assert timedOut.0.Ready() && timedOut.0.unread == "";
    assert late + "\n" + answer + "\n" == late + "\n" + (answer + "\n");
    FirstLineReply(timedOut.0, second, late, answer + "\n");
  }

  /** An `INFO` envelope, read as a prediction reply, has status `"success"` and
      neither `prediction` nor `probability`, so both take their defaults. */
  lemma InfoEnvelopeReadsAsEmptyPrediction(data: map<string, Json>)
    ensures InterpretPrediction(InfoEnvelope(data)) == Ok(Accepted((0, 0.0)))
  {
    var fields := InfoEnvelope(data).fields;
    assert fields.Keys == {"status", "data"};
    assert "prediction" != "status" && "prediction" != "data" by {
      assert "prediction"[0] != "status"[0] && "prediction"[0] != "data"[0];
    }
    assert "probability" != "status" && "probability" != "data" by {
      assert "probability"[0] != "status"[0] && "probability"[0] != "data"[0];
    }
    assert StatusIs(InfoEnvelope(data), Success);
    PredictionDefaults(InfoEnvelope(data));
  }

  /** The consequence for the window: when `INFO` times out and its envelope
      arrives late, the next prediction reads that envelope, which has status
      `"success"` but no prediction, and so reports a successful prediction of
      class 0 with probability 0.0, whatever the worker later answers. */
  lemma LateInfoReadsAsPrediction(b: Bridge, features: seq<real>, data: map<string, Json>, text: string, answer: string,
                                  parse: string -> Option<Json>, dump: Json -> string)
    requires b.Ready() && b.unread == ""
    requires parse(text) == Some(InfoEnvelope(data)) && '\n' !in text && NoEdgeSpace(text) && text != ""
    ensures var timedOut := GetModelInfo(b, None, parse);
      var next := Predict(timedOut.0, features, Some(text + "\n" + answer), parse, dump);
      && timedOut.1 == Ok(EmptyModelInfo)
      && next.1 == Ok(PredictionResult(true, 0, 0.0, ""))
      && next.0.unread == answer
  {
    var timedOut := GetModelInfo(b, None, parse);
    assert timedOut.0.Ready() && timedOut.0.unread == "";
    PredictReadsFirstLine(timedOut.0, features, text, answer, parse, dump);
    TrimOfTrimmed(text);
    assert ParseResponse(text, parse) == InfoEnvelope(data);
    InfoEnvelopeReadsAsEmptyPrediction(data);
  }

  /** An `INFO` reply naming two features and only the
      accuracy reads as that model with the other three metrics at 0.0. */
  lemma PartialMetricsInfoReply()
    ensures InterpretModelInfo(JObject(map[
      "status" := JString("success"),
      "data" := JObject(map[
        "model_name" := JString("demo"),
        "num_features" := JInt(2),
        "features" := JArray([JString("a"), JString("b")]),
        "metrics" := JObject(map["accuracy" := JFloat(0.9)])])]))
      == Ok(Accepted(ModelInfo("demo", ["a", "b"], 2, 0.9, 0.0, 0.0, 0.0)))
  {
    var items := [JString("a"), JString("b")];
    var read := StringItems(items);
    assert read.Some? && |read.value| == 2;
    assert read.value[0] == "a" && read.value[1] == "b";
    assert read.value == ["a", "b"];
  }

  /** An `INFO` reply `{"status":"error","message":"x"}`
      gives the empty model info, and a prediction reply of the same shape a
      failed result carrying `x`. */
  lemma ErrorStatusReplies()
    ensures InterpretModelInfo(ErrorEnvelope("x")) == Ok(Rejected(InfoNotSuccess))
    ensures InterpretPrediction(ErrorEnvelope("x")) == Ok(Rejected("x"))
  {
  }
}

=== FILE: python_bridge.dfy ===
/** The calling side of the line protocol: the bridge object that starts the worker,
    writes one command line per request, reads one reply line, and turns the reply
    into a `ModelInfo` or a `PredictionResult`.

    The process and the JSON library are not modelled; they appear as parameters:
    `started` (did the process reach the running state within the wait), `reply`
    (the output that arrived within the wait, or `None` on a timeout),
    `exitedInTime` (did the process exit within the shutdown wait), `parse` (the
    JSON parser, `None` on a syntax error) and `dump` (the JSON printer). */
module PythonBridge {
  import opened Results
  import opened Text
  import opened Json
  import opened Dto

  /** The worker always runs under this interpreter name; there is no other. */
  const Interpreter := "python3"
  const Success := "success"

  // The texts of the `errorOccurred` signal and of failed predictions.
  const StartFailed := "failed to start python process"
  const ReplyTimedOut := "timeout waiting for python response"
  const InfoNotJson := "invalid json response for model info"
  const InfoNotSuccess := "failed to get model info"
  const InfoWithoutData := "model info response missing data field"
  const PredictNotJson := "invalid json response from python"
  const UnknownError := "unknown error"

  /** What the bridge does to worker processes. */
  datatype ProcessEvent =
    | Spawned(program: string, arguments: seq<string>)
    | Wrote(data: string)
    | Killed
    | Released

  /** The bridge's state: the `initialized` flag; whether the `process` pointer is
      non-null; the worker output the process object has buffered but nobody has
      read yet; everything done to worker processes, oldest first; and every
      `errorOccurred` emission, oldest first. */
  datatype Bridge = Bridge(
    initialized: bool,
    hasProcess: bool,
    unread: string,
    events: seq<ProcessEvent>,
    errors: seq<string>)
  {
    /** The guard of `sendCommand`: only then is anything written. */
    predicate Ready() {
      initialized && hasProcess
    }
  }

  /** A freshly constructed bridge: no process, not initialized. */
  const Constructed := Bridge(false, false, "", [], [])

  /** A reply interpretation: either the data the caller asked for, or a reason to
      return the "failure" value instead. */
  datatype Verdict<T> = Accepted(value: T) | Rejected(reason: string)

  /** `initialize(script)`: a new process object replaces the pointer (the previous
      one, if any, is neither stopped nor released), the interpreter is started
      with the script as its only argument, and the flag is set only when the
      process reaches the running state in time. A failed start leaves the new
      pointer in place and the flag as it was. */
  function Initialize(b: Bridge, script: string, started: bool): (r: (Bridge, bool))
    ensures r.1 == started
    ensures r.0.hasProcess && r.0.unread == ""
    ensures r.0.initialized <==> started || b.initialized
    ensures r.0.events == b.events + [Spawned(Interpreter, [script])]
    ensures started ==> r.0.errors == b.errors
    ensures !started ==> r.0.errors == b.errors + [StartFailed]
  {
    var spawned := b.(hasProcess := true, unread := "", events := b.events + [Spawned(Interpreter, [script])]);
    if started then (spawned.(initialized := true), true)
    else (spawned.(errors := b.errors + [StartFailed]), false)
  }

  /** `line` is the first line of `buffer`, as `readLine` takes it: up to and
      including the first line feed, or all of the buffer when there is none. */
  ghost predicate IsFirstLine(buffer: string, line: string) {
    && line <= buffer
    && if '\n' in buffer then |line| > 0 && line[|line| - 1] == '\n' && '\n' !in line[..|line| - 1]
       else line == buffer
  }

  /** `readLine()` on the process: splits the buffered output into the first line
      and what stays buffered. */
  function ReadLine(buffer: string): (r: (string, string))
    ensures IsFirstLine(buffer, r.0)
    ensures r.0 + r.1 == buffer
  {
    match IndexOf(buffer, '\n')
    case None => (buffer, "")
    case Some(k) => (buffer[..k + 1], buffer[k + 1..])
  }

  /** `sendCommand(command)`: nothing happens unless the bridge is ready; otherwise
      the command is written followed by exactly one line feed, and the answer is
      the first buffered line, trimmed, or the empty text when nothing arrived in
      time. Output is consumed one line at a time, never dropped or reordered. */
  function SendCommand(b: Bridge, command: string, reply: Option<string>): (r: (Bridge, string))
    ensures !b.Ready() ==> r == (b, "")
    ensures b.Ready() ==> r.0.Ready() && r.0.events == b.events + [Wrote(command + "\n")]
    ensures reply.None? ==> r.1 == "" && r.0.unread == b.unread
    ensures b.Ready() && reply.None? ==> r.0.errors == b.errors + [ReplyTimedOut]
    ensures b.Ready() && reply.Some? ==> r.0.errors == b.errors
    ensures b.Ready() && reply.Some? ==>
      exists line :: IsFirstLine(b.unread + reply.value, line)
        && line + r.0.unread == b.unread + reply.value
        && r.1 == Trim(line)
    ensures NoEdgeSpace(r.1)
  {
    if !b.Ready() then (b, "")
    else
      var sent := b.(events := b.events + [Wrote(command + "\n")]);
      match reply
      case None => (sent.(errors := b.errors + [ReplyTimedOut]), "")
      case Some(chunk) =>
        var split := ReadLine(b.unread + chunk);
        (sent.(unread := split.1), Trim(split.0))
  }

  /** `parseResponse(response)`: empty or blank text and syntax errors all become
      the null value, so that they are indistinguishable from a well-formed reply
      that is not an object. */
  function ParseResponse(response: string, parse: string -> Option<Json>): (j: Json)
    ensures Trim(response) == "" ==> j == JNull
    ensures j.JObject? <==> Trim(response) != "" && parse(Trim(response)).Some? && parse(Trim(response)).value.JObject?
    ensures j.JObject? ==> parse(Trim(response)) == Some(j)
  {
    var trimmed := Trim(response);
    if trimmed == "" then JNull
    else match parse(trimmed)
      case None => JNull
      case Some(j) => j
  }

  /** The reply is an object whose `status` is the string `s`. */
  predicate StatusIs(j: Json, s: string) {
    j.JObject? && "status" in j.fields && j.fields["status"] == JString(s)
  }

  /** The reply is an object with `status == "success"` and a `data` object. */
  predicate HasData(j: Json) {
    StatusIs(j, Success) && "data" in j.fields && j.fields["data"].JObject?
  }

  /** The reply is an object whose `status` is absent or a string other than
      `"success"`: the failure branch of both status gates. */
  predicate StatusFailed(j: Json) {
    j.JObject? && ("status" !in j.fields || (j.fields["status"].JString? && j.fields["status"].s != Success))
  }

  /** `key` holds a metric the library cannot convert to `double`. */
  predicate BadMetric(metrics: map<string, Json>, key: string) {
    key in metrics && !IsNumber(metrics[key])
  }

  /** Some field `getModelInfo` reads from `data` has a type the library refuses:
      a non-string name, a non-numeric count, a non-string feature name, or a
      non-numeric metric. */
  predicate DataTypeError(data: map<string, Json>) {
    || ("model_name" in data && !data["model_name"].JString?)
    || ("num_features" in data && !ConvertsToInt(data["num_features"]))
    || ("features" in data && data["features"].JArray?
        && exists i :: 0 <= i < |data["features"].items| && !data["features"].items[i].JString?)
    || ("metrics" in data && data["metrics"].JObject?
        && var metrics := data["metrics"].fields;
        BadMetric(metrics, "accuracy") || BadMetric(metrics, "precision")
        || BadMetric(metrics, "recall") || BadMetric(metrics, "f1_score"))
  }

  /** The entries of a `features` array, each read as a string; `None` when one of
      them is not a string (the library then raises a type error). */
  function StringItems(items: seq<Json>): (r: Option<seq<string>>)
    ensures r.Some? <==> forall i :: 0 <= i < |items| ==> items[i].JString?
    ensures r.Some? ==> |r.value| == |items| && forall i :: 0 <= i < |items| ==> items[i] == JString(r.value[i])
  {
    if |items| == 0 then Some([])
    else match (AsString(items[0]), StringItems(items[1..]))
      case (Some(s), Some(rest)) => Some([s] + rest)
      case _ => None
  }

  /** The four metrics, each defaulting to 0.0 when absent. */
  function ReadMetrics(metrics: map<string, Json>): (r: Result<(real, real, real, real), string>)
    ensures r.Err? <==> BadMetric(metrics, "accuracy") || BadMetric(metrics, "precision")
                        || BadMetric(metrics, "recall") || BadMetric(metrics, "f1_score")
  {
    var accuracy :- ValueDouble(metrics, "accuracy", 0.0);
    var precision :- ValueDouble(metrics, "precision", 0.0);
    var recall :- ValueDouble(metrics, "recall", 0.0);
    var f1 :- ValueDouble(metrics, "f1_score", 0.0);
    Ok((accuracy, precision, recall, f1))
  }

  /** The fields of `ModelInfo` read from a `data` object, in the order
      `getModelInfo` reads them; an error names the key whose value had the
      wrong type. */
  function ReadModelInfo(data: map<string, Json>): (r: Result<ModelInfo, string>)
    ensures r.Err? <==> DataTypeError(data)
  {
    var name :- ValueString(data, "model_name", "");
    var count :- ValueInt(data, "num_features", 0);
    var features :- if "features" in data && data["features"].JArray? then
                      (match StringItems(data["features"].items)
                       case Some(names) => Ok(names)
                       case None => Err("features"))
                    else Ok([]);
    var metrics :- if "metrics" in data && data["metrics"].JObject? then ReadMetrics(data["metrics"].fields)
                   else Ok((0.0, 0.0, 0.0, 0.0));
    Ok(ModelInfo(name, features, count, metrics.0, metrics.1, metrics.2, metrics.3))
  }

  /** The checks of `getModelInfo` on a parsed reply. An `Err` is a type error
      raised by the JSON library, which escapes the call. */
  function InterpretModelInfo(j: Json): (r: Result<Verdict<ModelInfo>, string>)
    ensures !j.JObject? ==> r == Ok(Rejected(InfoNotJson))
    ensures j.JObject? && "status" in j.fields && !j.fields["status"].JString? ==> r == Err("status")
    ensures StatusFailed(j) ==> r == Ok(Rejected(InfoNotSuccess))
    ensures StatusIs(j, Success) && !HasData(j) ==> r == Ok(Rejected(InfoWithoutData))
    ensures HasData(j) ==> (r.Err? <==> DataTypeError(j.fields["data"].fields))
    ensures r.Ok? ==> (r.value.Accepted? <==> HasData(j))
    ensures r.Ok? && r.value.Accepted? && r.value.value.features != [] ==>
      var data := j.fields["data"].fields;
      && "features" in data && data["features"].JArray?
      && var items := data["features"].items;
      && |items| == |r.value.value.features|
      && forall i :: 0 <= i < |items| ==> items[i] == JString(r.value.value.features[i])
  {
    if !j.JObject? then Ok(Rejected(InfoNotJson))
    else
      var status :- ValueString(j.fields, "status", "");
      if status != Success then Ok(Rejected(InfoNotSuccess))
      else if "data" !in j.fields || !j.fields["data"].JObject? then Ok(Rejected(InfoWithoutData))
      else
        var info :- ReadModelInfo(j.fields["data"].fields);
        Ok(Accepted(info))
  }

  /** `getModelInfo()`: sends `INFO` and answers the empty `ModelInfo` (with an
      `errorOccurred` emission) for every reply it cannot use, and the reply's
      model otherwise. */
  function GetModelInfo(b: Bridge, reply: Option<string>, parse: string -> Option<Json>): (r: (Bridge, Result<ModelInfo, string>))
    ensures !b.Ready() ==> r.0 == b.(errors := b.errors + [InfoNotJson]) && r.1 == Ok(EmptyModelInfo)
    ensures b.Ready() ==> r.0.events == b.events + [Wrote("INFO\n")]
    ensures reply.None? ==> r.1 == Ok(EmptyModelInfo)
    ensures r.1.Ok? && r.1.value.features != [] ==> b.Ready() && reply.Some? && r.0.errors == b.errors
    ensures var exchange := SendCommand(b, "INFO", reply);
      var verdict := InterpretModelInfo(ParseResponse(exchange.1, parse));
      && r.0.unread == exchange.0.unread
      && (verdict.Err? ==> r == (exchange.0, Err(verdict.error)))
      && (verdict.Ok? && verdict.value.Rejected? ==>
            r == (exchange.0.(errors := exchange.0.errors + [verdict.value.reason]), Ok(EmptyModelInfo)))
      && (verdict.Ok? && verdict.value.Accepted? ==> r == (exchange.0, Ok(verdict.value.value)))
  {
    assert "INFO" + "\n" == "INFO\n";
    var exchange := SendCommand(b, "INFO", reply);
    var sent := exchange.0;
    match InterpretModelInfo(ParseResponse(exchange.1, parse))
    case Err(key) => (sent, Err(key))
    case Ok(Rejected(reason)) => (sent.(errors := sent.errors + [reason]), Ok(EmptyModelInfo))
    case Ok(Accepted(info)) => (sent, Ok(info))
  }

  /** The feature values as JSON numbers, in order. */
  function FeatureArray(features: seq<real>): (a: seq<Json>)
    ensures |a| == |features|
    ensures forall i :: 0 <= i < |features| ==> a[i] == JFloat(features[i])
  {
    seq(|features|, i requires 0 <= i < |features| => JFloat(features[i]))
  }

  /** The predict request: an object whose only key is `features`, holding the
      vector in its original order. */
  function PredictRequest(features: seq<real>): (j: Json)
    ensures j.JObject? && j.fields.Keys == {"features"}
    ensures j.fields["features"].JArray?
    ensures var items := j.fields["features"].items;
      |items| == |features| && forall i :: 0 <= i < |features| ==> items[i] == JFloat(features[i])
  {
    JObject(map["features" := JArray(FeatureArray(features))])
  }

  /** The checks of `predict` on a parsed reply: a prediction only for an object
      whose `status` is `"success"`. An `Err` is a type error raised by the JSON
      library, which escapes the call. */
  function InterpretPrediction(j: Json): (r: Result<Verdict<(int, real)>, string>)
    ensures !j.JObject? ==> r == Ok(Rejected(PredictNotJson))
    ensures j.JObject? && "status" in j.fields && !j.fields["status"].JString? ==> r == Err("status")
    ensures r.Ok? ==> (r.value.Accepted? <==> StatusIs(j, Success))
    ensures StatusFailed(j) && "message" !in j.fields ==> r == Ok(Rejected(UnknownError))
    ensures StatusFailed(j) && "message" in j.fields && j.fields["message"].JString? ==>
      r == Ok(Rejected(j.fields["message"].s))
    ensures StatusFailed(j) && "message" in j.fields && !j.fields["message"].JString? ==> r == Err("message")
    ensures StatusIs(j, Success) ==>
      (r.Err? <==> ("prediction" in j.fields && !ConvertsToInt(j.fields["prediction"]))
                   || ("probability" in j.fields && !IsNumber(j.fields["probability"])))
    ensures StatusIs(j, Success) && r.Ok? ==>
      && ("prediction" !in j.fields ==> r.value.value.0 == 0)
      && ("prediction" in j.fields ==> AsInt(j.fields["prediction"]) == Some(r.value.value.0))
      && ("probability" !in j.fields ==> r.value.value.1 == 0.0)
      && ("probability" in j.fields ==> AsDouble(j.fields["probability"]) == Some(r.value.value.1))
  {
    if !j.JObject? then Ok(Rejected(PredictNotJson))
    else
      var status :- ValueString(j.fields, "status", "");
      if status != Success then
        var message :- ValueString(j.fields, "message", UnknownError);
        Ok(Rejected(message))
      else
        var prediction :- ValueInt(j.fields, "prediction", 0);
        var probability :- ValueDouble(j.fields, "probability", 0.0);
        Ok(Accepted((prediction, probability)))
  }

  /** `predict(features)`: one request line, whatever the vector's length, and a
      result that is successful exactly when the reply says so. */
  function Predict(b: Bridge, features: seq<real>, reply: Option<string>,
                   parse: string -> Option<Json>, dump: Json -> string): (r: (Bridge, Result<PredictionResult, string>))
    ensures !b.Ready() ==> r.0.events == b.events && r.1 == Ok(PredictionResult(false, 0, 0.0, PredictNotJson))
    ensures b.Ready() ==> r.0.events == b.events + [Wrote(dump(PredictRequest(features)) + "\n")]
    ensures reply.None? ==> r.1 == Ok(PredictionResult(false, 0, 0.0, PredictNotJson))
    ensures r.1.Ok? && !r.1.value.success ==>
      && r.1.value.prediction == 0 && r.1.value.probability == 0.0
      && r.0.errors == SendCommand(b, dump(PredictRequest(features)), reply).0.errors + [r.1.value.errorMessage]
    ensures r.1.Ok? && r.1.value.success ==>
      && r.1.value.errorMessage == ""
      && b.Ready() && reply.Some?
      && StatusIs(ParseResponse(SendCommand(b, dump(PredictRequest(features)), reply).1, parse), Success)
    ensures var exchange := SendCommand(b, dump(PredictRequest(features)), reply);
      var verdict := InterpretPrediction(ParseResponse(exchange.1, parse));
      && r.0.unread == exchange.0.unread
      && (verdict.Err? ==> r == (exchange.0, Err(verdict.error)))
      && (verdict.Ok? && verdict.value.Rejected? ==>
            r == (exchange.0.(errors := exchange.0.errors + [verdict.value.reason]),
                  Ok(PredictionResult(false, 0, 0.0, verdict.value.reason))))
      && (verdict.Ok? && verdict.value.Accepted? ==>
            r == (exchange.0, Ok(PredictionResult(true, verdict.value.value.0, verdict.value.value.1, ""))))
  {
    var exchange := SendCommand(b, dump(PredictRequest(features)), reply);
    var sent := exchange.0;
    match InterpretPrediction(ParseResponse(exchange.1, parse))
    case Err(key) => (sent, Err(key))
    case Ok(Rejected(message)) =>
      (sent.(errors := sent.errors + [message]), Ok(PredictionResult(false, 0, 0.0, message)))
    case Ok(Accepted((prediction, probability))) =>
      (sent, Ok(PredictionResult(true, prediction, probability, "")))
  }

  /** `shutdown()`: from any state, ends with no process and the flag cleared.
      Only an existing process is sent `EXIT`, killed when it has not exited in
      time, and released. */
  function Shutdown(b: Bridge, exitedInTime: bool): (r: Bridge)
    ensures !r.initialized && !r.hasProcess && r.unread == ""
    ensures r.errors == b.errors
    ensures |r.events| >= |b.events| && r.events[..|b.events|] == b.events
    ensures !b.hasProcess ==> r.events == b.events
    ensures b.hasProcess ==>
      && |r.events| > |b.events|
      && r.events[|b.events|] == Wrote("EXIT\n")
      && r.events[|r.events| - 1] == Released
      && (Killed in r.events[|b.events|..] <==> !exitedInTime)
      && |r.events| == |b.events| + (if exitedInTime then 2 else 3)
  {
    if b.hasProcess then
      var tail := [Wrote("EXIT\n")] + (if exitedInTime then [] else [Killed]) + [Released];
      b.(initialized := false, hasProcess := false, unread := "", events := b.events + tail)
    else
      b.(initialized := false, unread := "")
  }

  /** The destructor, which runs `shutdown`. */
  function Destroy(b: Bridge, exitedInTime: bool): (r: Bridge)
    ensures !r.Ready() && !r.hasProcess
    ensures |r.events| >= |b.events|
    ensures b.hasProcess <==> Released in r.events[|b.events|..]
    ensures r.errors == b.errors
    ensures !b.hasProcess ==> r.events == b.events
    ensures b.hasProcess ==>
      r.events[|b.events|..] == [Wrote("EXIT\n")] + (if exitedInTime then [] else [Killed]) + [Released]
  {
    Shutdown(b, exitedInTime)
  }

  /** A second `shutdown` changes nothing, whatever the process does. */
  lemma ShutdownIdempotent(b: Bridge, exitedInTime: bool, exitedAgain: bool)
    ensures Shutdown(Shutdown(b, exitedInTime), exitedAgain) == Shutdown(b, exitedInTime)
  {
  }

  /** A start that fails in time leaves the bridge unusable but holding a process:
      nothing is written by later commands, yet `shutdown` still sends `EXIT` to
      that process and releases it. */
  lemma FailedStartKeepsProcess(script: string, command: string, reply: Option<string>, exitedInTime: bool)
    ensures var b := Initialize(Constructed, script, false).0;
      && b.hasProcess && !b.initialized
      && SendCommand(b, command, reply) == (b, "")
      && Shutdown(b, exitedInTime).events[..2] == [Spawned(Interpreter, [script]), Wrote("EXIT\n")]
      && Shutdown(b, true).events == [Spawned(Interpreter, [script]), Wrote("EXIT\n"), Released]
  {
  }

  /** Each field of a usable `INFO` reply is copied as the library converts it,
      and an absent field takes its default: the name `""`, the count 0, no
      features (the count is not compared with the list), and 0.0 for each
      metric, all four of them when `metrics` is missing or not an object. */
  lemma ModelInfoDefaults(j: Json)
    requires HasData(j)
    ensures var r := InterpretModelInfo(j);
      var data := j.fields["data"].fields;
      r.Ok? ==>
      && r.value.Accepted?
      && var info := r.value.value;
      && ("model_name" !in data ==> info.modelName == "")
      && ("model_name" in data ==> data["model_name"] == JString(info.modelName))
      && ("num_features" !in data ==> info.numFeatures == 0)
      && ("num_features" in data ==> AsInt(data["num_features"]) == Some(info.numFeatures))
      && (("features" !in data || !data["features"].JArray?) ==> info.features == [])
      && ("features" in data && data["features"].JArray? ==>
            StringItems(data["features"].items) == Some(info.features))
      && (("metrics" !in data || !data["metrics"].JObject?) ==>
            info.accuracy == 0.0 && info.precision == 0.0 && info.recall == 0.0 && info.f1Score == 0.0)
      && ("metrics" in data && data["metrics"].JObject? ==>
            var metrics := data["metrics"].fields;
            && MetricRead(metrics, "accuracy", info.accuracy)
            && MetricRead(metrics, "precision", info.precision)
            && MetricRead(metrics, "recall", info.recall)
            && MetricRead(metrics, "f1_score", info.f1Score))
  {
  }

  /** `value` is what `metrics.value(key, 0.0)` reads: 0.0 when the metric is
      absent, its number otherwise. */
  predicate MetricRead(metrics: map<string, Json>, key: string, value: real) {
    if key in metrics then AsDouble(metrics[key]) == Some(value) else value == 0.0
  }

  /** A successful reply's `prediction` and `probability` are taken as they are,
      with no range check and no complement. */
  lemma PredictionCopiedVerbatim(fields: map<string, Json>, prediction: int, probability: real)
    requires "status" in fields && fields["status"] == JString(Success)
    requires "prediction" in fields && fields["prediction"] == JInt(prediction)
    requires "probability" in fields && fields["probability"] == JFloat(probability)
    ensures InterpretPrediction(JObject(fields)) == Ok(Accepted((prediction, probability)))
  {
  }

  /** An absent `prediction` reads as 0 and an absent `probability` as 0.0. */
  lemma PredictionDefaults(j: Json)
    requires StatusIs(j, Success)
    ensures var r := InterpretPrediction(j);
      && (r.Ok? && "prediction" !in j.fields ==> r.value.value.0 == 0)
      && (r.Ok? && "probability" !in j.fields ==> r.value.value.1 == 0.0)
  {
  }
}

=== FILE: results.dfy ===
/** Optional values and success-or-error values shared by every module of the model. */
module Results {

  datatype Option<+T> = None | Some(value: T)

  /** A value, or the error that replaced it. Failure-compatible, so `:-` propagates the error. */
  datatype Result<+T, +E> = Ok(value: T) | Err(error: E) {

    predicate IsFailure() {
      Err?
    }

    function PropagateFailure<U>(): Result<U, E>
      requires Err?
    {
      Err(error)
    }

    function Extract(): T
      requires Ok?
    {
      value
    }
  }
}

=== FILE: text.dfy ===
/** Character-level helpers: whitespace trimming and searching for a character. */
module Text {
  import opened Results

  /** The whitespace of `std::isspace` in the "C" locale: space, tab, line feed,
      vertical tab, form feed and carriage return. The same set stands for
      `QString::trimmed` and Python's `str.strip` (their extra Unicode spaces are
      not modelled). */
  predicate IsSpace(c: char) {
    c == ' ' || c == '\t' || c == '\n' || c == '\U{000B}' || c == '\U{000C}' || c == '\r'
  }

  predicate AllSpace(s: string) {
    forall i :: 0 <= i < |s| ==> IsSpace(s[i])
  }

  /** Neither the first nor the last character is whitespace. */
  predicate NoEdgeSpace(s: string) {
    |s| == 0 || (!IsSpace(s[0]) && !IsSpace(s[|s| - 1]))
  }

  /** The number of whitespace characters at the front of `s`. */
  function LeadingSpace(s: string): (n: nat)
    ensures n <= |s|
    ensures forall i :: 0 <= i < n ==> IsSpace(s[i])
    ensures n < |s| ==> !IsSpace(s[n])
  {
    if |s| == 0 || !IsSpace(s[0]) then 0 else 1 + LeadingSpace(s[1..])
  }

  /** The number of whitespace characters at the back of `s`. */
  function TrailingSpace(s: string): (n: nat)
    ensures n <= |s|
    ensures forall i :: |s| - n <= i < |s| ==> IsSpace(s[i])
    ensures n < |s| ==> !IsSpace(s[|s| - 1 - n])
  {
    if |s| == 0 || !IsSpace(s[|s| - 1]) then 0 else 1 + TrailingSpace(s[..|s| - 1])
  }

  /** `r` is what is left of `s` once the whitespace at both ends is removed:
      a contiguous slice of `s`, with only whitespace cut away on either side,
      that neither starts nor ends with whitespace. */
  ghost predicate IsTrimOf(s: string, r: string) {
    && NoEdgeSpace(r)
    && exists i, j :: Cut(s, i, j) && r == s[i..j]
  }

  /** Cutting `s` before position `i` and after position `j` removes only whitespace. */
  ghost predicate Cut(s: string, i: int, j: int) {
    && 0 <= i <= j <= |s|
    && (forall k :: 0 <= k < i ==> IsSpace(s[k]))
    && (forall k :: j <= k < |s| ==> IsSpace(s[k]))
  }

  function Trim(s: string): (r: string)
    ensures IsTrimOf(s, r)
    ensures |r| <= |s|
  {
    var i := LeadingSpace(s);
    var t := s[i..];
    var k := TrailingSpace(t);
    var r := t[..|t| - k];
    assert r == s[i..i + |t| - k];
    assert Cut(s, i, i + |t| - k);
    r
  }

  /** Trimming has exactly one possible result. */
  lemma TrimUnique(s: string, r: string)
    requires IsTrimOf(s, r)
    ensures r == Trim(s)
  {
    var t := Trim(s);
    var i, j :| Cut(s, i, j) && r == s[i..j];
    var i', j' :| Cut(s, i', j') && t == s[i'..j'];
    // A non-empty result starts at the first non-space character and ends after the last one.
    assert |r| > 0 ==> s[i] == r[0] && s[j - 1] == r[|r| - 1];
    assert |t| > 0 ==> s[i'] == t[0] && s[j' - 1] == t[|t| - 1];
  }

  /** A text without edge whitespace is its own trim. */
  lemma TrimOfTrimmed(s: string)
    requires NoEdgeSpace(s)
    ensures Trim(s) == s
  {
    assert Cut(s, 0, |s|) && s == s[0..|s|];
    TrimUnique(s, s);
  }

  lemma TrimIdempotent(s: string)
    ensures Trim(Trim(s)) == Trim(s)
  {
    TrimOfTrimmed(Trim(s));
  }

  /** The position of the first occurrence of `c` in `s`, if any. */
  function IndexOf(s: string, c: char): (r: Option<nat>)
    ensures r.None? <==> c !in s
    ensures r.Some? ==> r.value < |s| && s[r.value] == c && c !in s[..r.value]
  {
    if |s| == 0 then None
    else if s[0] == c then Some(0)
    else match IndexOf(s[1..], c)
      case None => None
      case Some(k) =>
        assert s[..k + 1] == [s[0]] + s[1..][..k];
        Some(k + 1)
  }
}
